=== FILE: README.md ===
# Artemis game and page helpers — a Dafny model

This project models two parts of a personal portfolio site.

The first is the **Artemis mini-game** (`scripts/artemis-game.js`). A rocket flies up a canvas, dodges
asteroids and collects fuel canisters until one of three things happens:

- the tank runs dry;
- the lives run out;
- the score reaches 500.

The model covers:

- the game's state;
- its four-phase state machine (`start`, `togglePause`, `restart`, `gameOver`);
- the two spawners and the explosion burst;
- the score-driven difficulty law;
- the axis-aligned collision test;
- the whole per-frame `update`.

The second part is three pure helpers of the page script (`scripts/main.js`):

- `escapeHtml`;
- one call of the hero typing effect's `type()`;
- the capping and escaping of a news card's tags and links in `renderNewsItem`.

Modules:

- `Geometry`: rectangles and the strict-overlap collision test.
- `Artemis`: the state, the constants, the difficulty law, spawning, explosions and the phase operations.
- `ArtemisUpdate`: one frame of `update`. It is split into movement, drain, spawner, the asteroid pass, the canister pass and the end-of-game checks.
- `ArtemisProperties`: the invariant that every operation keeps, the allowed phase transitions, and a witness that lives can go below zero.
- `Escape`: `escapeHtml` as its chain of five `replaceAll` calls, a per-character reference encoder, and a decoder.
- `Typing`: the typing-effect step and runs of steps.
- `News`: the tag and link lists of a news card.

Randomness is a parameter. `Math.random()` is a stream `rng: nat -> real`. Each command (`Artemis.Start`, `ArtemisUpdate.Tick`) gets its own stream and reads it from position 0. Inside a command, the helpers that draw take a cursor. The spawners and the two passes return the advanced cursor. `Artemis.Explosion` reads the sixteen values from its cursor on and returns only the particles; its callers (`ArtemisUpdate.Collide`, `ArtemisUpdate.Collect`) advance the cursor past them. The draws happen in the source's order:

- five per spawned asteroid;
- one or two per fuel spawn;
- sixteen per explosion.

Positions, speeds and fuel are exact reals.

## Behaviour worth knowing

Three consequences of how `update` is written:

- Lives can go below zero. The asteroid filter (scripts/artemis-game.js:205-222) keeps visiting asteroids after the lives reach zero, so two strikes in one frame take one remaining life to -1 (`ArtemisProperties.LivesCanGoNegative`, `ArtemisUpdate.AsteroidPassPhase`).
- A loss to asteroids does not end the frame. `gameOver(false)` inside the filter does not return from `update`, so the canister pass (scripts/artemis-game.js:224-238) still runs, and the particles still decay (:252-256) unless the tank or the score check fires. In the model, `ArtemisUpdate.Simulate` always runs both passes, and `ArtemisUpdate.EndChecks` decides decay from the tank and the score alone.
- A frame lost to asteroids can still end in victory. The checks at scripts/artemis-game.js:240-250 look at the tank and the score, not at the lives or the phase. If that frame's pickups reach 500 points, the final phase is a victory (`ArtemisProperties.TickOutcome`).

## Model

| member | source | states |
|---|---|---|
| Geometry.CollidesSymmetric | scripts/artemis-game.js:261-266 | The overlap test gives the same answer with its arguments swapped. |
| Geometry.TouchingDoNotCollide | scripts/artemis-game.js:261-266 | Rectangles that only share an edge do not collide: every comparison is strict. |
| Geometry.CommonPointCollides | scripts/artemis-game.js:261-266 | A point strictly inside both rectangles makes them collide. |
| Geometry.CollidesIffCommonPoint | scripts/artemis-game.js:261-266 | For rectangles of positive size, the test holds exactly when some point lies strictly inside both. |
| Artemis.Init | scripts/artemis-game.js:20-44 | A new game is idle, with score 0, 3 lives, a full tank of 100, no entities, and the ship's left edge at half the canvas width, 120 above the bottom. The canvas width and height are the given ones. |
| Artemis.SizeMultiplier | scripts/artemis-game.js:133 | The asteroid size factor lies in [1, 1.4] for scores from 0 to the goal, and is at least 1 for any non-negative score. |
| Artemis.SpeedMultiplier | scripts/artemis-game.js:134 | The asteroid speed factor lies in [1, 1.6] for scores from 0 to the goal, and is at least 1 for any non-negative score. |
| Artemis.FuelDrain | scripts/artemis-game.js:191 | The per-tick drain lies in [0.08, 0.14] for scores from 0 to the goal. |
| Artemis.SpawnThreshold | scripts/artemis-game.js:196 | The spawn interval is never below 15. It is at most 30 for non-negative scores, exactly 30 below 100 points and 15 from 1500 points. |
| Artemis.ScalingMonotone | scripts/artemis-game.js:133-134 | A higher score never gives smaller or slower asteroids. |
| Artemis.PaceMonotone | scripts/artemis-game.js:191-196 | A higher score never drains less fuel and never makes the spawn interval longer. |
| Artemis.NewAsteroid | scripts/artemis-game.js:136-145 | A spawned asteroid starts 30 above the top edge. It is 30 scaled by the size factor, lies inside the canvas width, is at least twice the speed factor fast, and has one of three kinds. |
| Artemis.SpawnAsteroid | scripts/artemis-game.js:129-147 | Outside play nothing changes and nothing is drawn. In play exactly one new asteroid is appended, five values are drawn, and nothing else changes. |
| Artemis.NewFuelItem | scripts/artemis-game.js:151-158 | A canister starts 20 above the top edge, inside the canvas width, falling at speed 2, with bobbing 0. |
| Artemis.SpawnFuel | scripts/artemis-game.js:149-161 | A canister is added exactly when the first draw is below 0.015; then two values are drawn, otherwise one. Nothing else changes, in any phase. |
| Artemis.BurstParticle | scripts/artemis-game.js:270-277 | A particle starts at the explosion point with life 1 and the burst colour. For draws in [0,1), each velocity component lies in [-4, 4). |
| Artemis.Explosion | scripts/artemis-game.js:268-279 | An explosion makes eight particles, all at the given point with full life, the given colour and velocities in [-4, 4). |
| Artemis.Start | scripts/artemis-game.js:76-91 | Only an idle game starts. It becomes Playing with one new asteroid appended, and nothing else changes; any other phase is left untouched. |
| Artemis.TogglePause | scripts/artemis-game.js:93-103 | The result is Paused exactly when the game was Playing, and Playing exactly when it was Paused. Other phases and all other fields are untouched. |
| Artemis.TogglePauseInvolution | scripts/artemis-game.js:93-103 | Two pause presses give back the original game. |
| Artemis.Restart | scripts/artemis-game.js:105-113 | From any phase: Idle, score 0, 3 lives, a full tank, the ship's left edge back at half the canvas width, no entities. The spawn counter, the ship's vertical position, the scroll offset and the canvas are kept. |
| Artemis.RestartIdempotent | scripts/artemis-game.js:105-113 | Restarting twice is the same as restarting once. |
| Artemis.StartTwiceIsStartOnce | scripts/artemis-game.js:76-91 | A second start without a restart in between does nothing. |
| Artemis.EndGame | scripts/artemis-game.js:295-297 | Ending the game sets the finished phase with its victory flag and changes nothing else. |
| ArtemisUpdate.MoveShip | scripts/artemis-game.js:166-188 | Each axis moves by at most one step. A single key of an axis takes exactly one step in its direction when its edge guard allows, and otherwise the ship stays put on that axis. With both keys of an axis held, the second guard sees the position after the first step: when both steps are taken they cancel, otherwise the one allowed step is taken. The backdrop scrolls by half the vertical movement, in the opposite direction. The movement bands are preserved, and no other field changes. |
| ArtemisUpdate.Drain | scripts/artemis-game.js:190-192 | The tank never goes below 0. It is empty exactly when the drain is at least the fuel left. A tank holding more than the drain loses exactly the score's drain, 0.08 + 0.06·score/500, so a non-empty tank strictly decreases. |
| ArtemisUpdate.Spawner | scripts/artemis-game.js:194-200 | The counter resets exactly when it passes the score's threshold; then one asteroid spawns. Otherwise the counter only counts up, and it never passes 30. |
| ArtemisUpdate.Collide | scripts/artemis-game.js:206-221 | The filter callback for one asteroid, field by field. The asteroid is kept exactly when it misses the ship and is above the bottom edge. Lives drop by one and sixteen values are drawn exactly on a strike. The game is lost exactly when a strike meets at most one life left. The old particles stay first, followed on a strike by eight red full-life particles at the asteroid. Nothing else changes. |
| ArtemisUpdate.Fall | scripts/artemis-game.js:206-207 | An asteroid moves down by its speed; only its height and rotation change. |
| ArtemisUpdate.SurvivorsExactly | scripts/artemis-game.js:205-222 | The reference list of asteroids the filter keeps holds exactly the fallen asteroids that miss the ship and are still above the bottom edge. |
| ArtemisUpdate.AsteroidPass | scripts/artemis-game.js:204-222 | The pass costs one life and sixteen draws per striking asteroid. It leaves the ship and canvas unchanged. |
| ArtemisUpdate.AsteroidPassSurvivors | scripts/artemis-game.js:205-222 | The asteroids kept by the filter are exactly the survivors, in order. |
| ArtemisUpdate.AsteroidPassBursts | scripts/artemis-game.js:210-212 | Each strike appends one burst of eight full-life red particles, after the old ones. |
| ArtemisUpdate.AsteroidPassPhase | scripts/artemis-game.js:210-218 | The pass ends the game with a loss exactly when some asteroid strikes and the strikes use up the lives; otherwise the phase is unchanged. |
| ArtemisUpdate.AsteroidPassFrame | scripts/artemis-game.js:204-222 | Only asteroids, lives, particles and phase change in the asteroid pass. |
| ArtemisUpdate.Drift | scripts/artemis-game.js:226-227 | A canister moves down by its speed; only its height and bobbing change. |
| ArtemisUpdate.RemainingExactly | scripts/artemis-game.js:225-238 | The reference list of canisters the filter keeps holds exactly the drifted canisters that the ship misses and that are still above the bottom edge. |
| ArtemisUpdate.Refuelled | scripts/artemis-game.js:231 | A tank within [0, 100] stays within it after any number of capped +30 pickups, and never ends below its start unless it is full. |
| ArtemisUpdate.FuelPass | scripts/artemis-game.js:224-238 | Each collected canister adds 10 points and a capped 30 fuel, and costs sixteen draws. |
| ArtemisUpdate.FuelPassRemaining | scripts/artemis-game.js:225-238 | The canisters kept by the filter are exactly the remaining ones, in order. |
| ArtemisUpdate.FuelPassBursts | scripts/artemis-game.js:230-234 | Each pickup appends one burst of eight full-life yellow particles, after the old ones. |
| ArtemisUpdate.FuelPassFrame | scripts/artemis-game.js:224-238 | Only canisters, score, fuel and particles change in the canister pass. |
| ArtemisUpdate.Collect | scripts/artemis-game.js:226-237 | The filter callback for one canister, field by field. The canister is kept exactly when the ship misses it and it is above the bottom edge. The score rises by 10 and sixteen values are drawn exactly on a pickup. A pickup adds 30 fuel or fills the tank, whichever is less; a miss leaves the tank alone. The old particles stay first, followed on a pickup by eight yellow full-life particles at the canister. Nothing else changes. |
| ArtemisUpdate.Fade | scripts/artemis-game.js:254 | A particle loses 0.02 of its life and nothing else. |
| ArtemisUpdate.DecayKeeps | scripts/artemis-game.js:252-256 | Exactly the aged particles with life left are kept. None has life 0 or less, and none exceeds 1 if none did before. |
| ArtemisUpdate.DecayConcat | scripts/artemis-game.js:252-256 | The filter treats each particle on its own: the result for a concatenation is the results for its parts, in order. |
| ArtemisUpdate.DecayOne | scripts/artemis-game.js:253-255 | One particle is kept, aged by 0.02, exactly when it has life left after aging. With DecayConcat this fixes the count and the order of the kept particles. |
| ArtemisUpdate.EndChecks | scripts/artemis-game.js:240-256 | Field by field: an empty tank always loses, whatever the score. The game has ended exactly when the tank is empty, the score has reached 500, or it had ended before. It is won exactly when fuel is left and the goal is reached, or it had been won before. The particles decay exactly when neither check fires. Nothing else changes. |
| ArtemisUpdate.Prepare | scripts/artemis-game.js:166-202 | Movement, drain and spawning change neither score, lives, phase, particles nor canvas. The ship and fuel are those of movement and drain. |
| ArtemisUpdate.Simulate | scripts/artemis-game.js:166-238 | Movement, drain, spawning and both passes keep the canvas, never lower the score, and leave the phase as it was or turn it into a loss. |
| ArtemisUpdate.Tick | scripts/artemis-game.js:163-164 | A frame changes nothing unless the game is playing. |
| ArtemisProperties.Inv | scripts/artemis-game.js:20-44 | The facts every reachable game keeps: the canvas fits the ship's bands, the tank is within [0, 100], the score is non-negative, the spawn counter is within [0, 30], the ship is inside its bands, every particle has life in (0, 1], and every asteroid and canister is above the bottom edge. |
| ArtemisProperties.InitInv | scripts/artemis-game.js:20-44 | A new game on a large enough canvas satisfies the invariant. |
| ArtemisProperties.RestartInv | scripts/artemis-game.js:105-113 | Restart keeps the invariant. |
| ArtemisProperties.StartInv | scripts/artemis-game.js:76-91 | Start keeps the invariant; its new asteroid begins above the top edge, so it is above the bottom too. |
| ArtemisProperties.TogglePauseInv | scripts/artemis-game.js:93-103 | Pausing keeps the invariant. |
| ArtemisProperties.PrepareInv | scripts/artemis-game.js:166-202 | Movement, drain and spawning keep the invariant, including the above-the-bottom bound of the spawned asteroids and canisters, and change neither score nor phase. |
| ArtemisProperties.AsteroidStageInv | scripts/artemis-game.js:204-222 | The asteroid pass keeps the invariant and the score, and can only turn the phase into a loss. Every kept asteroid is above the bottom edge, because the filter drops the others. |
| ArtemisProperties.FuelStageInv | scripts/artemis-game.js:224-238 | The canister pass keeps the invariant and the phase, and adds 10 points per pickup. Every kept canister is above the bottom edge. |
| ArtemisProperties.SimulateFacts | scripts/artemis-game.js:166-238 | Before the end checks the invariant still holds, the score has only grown, in multiples of 10, and the phase is unchanged or a loss. |
| ArtemisProperties.TickInv | scripts/artemis-game.js:163-259 | A whole frame keeps the invariant for any keys and any random values. In particular, no asteroid or canister below the bottom edge survives a frame. |
| ArtemisProperties.TickScore | scripts/artemis-game.js:231-232 | A frame never lowers the score, and raises it only by multiples of 10. |
| ArtemisProperties.TickOutcome | scripts/artemis-game.js:240-250 | An empty tank loses even with lives left. Otherwise 500 points win. Otherwise the game is still playing or was lost to asteroids. |
| ArtemisProperties.GameOverIsFinal | scripts/artemis-game.js:163-164 | A finished game is unchanged by frames, start and pause: the guards of `update` (:164), `start` (:78) and `togglePause` (:94-98) all turn it away. Only restart leaves it, to Idle. |
| ArtemisProperties.PhaseTransitions | scripts/artemis-game.js:76-113 | Each command moves the phase only along its own edges. Start takes Idle to Playing and leaves other phases alone. Pause swaps Playing and Paused and leaves other phases alone. Restart always lands in Idle. A frame keeps Playing or ends the game, and leaves every other phase alone. |
| ArtemisProperties.ApplyInv | scripts/artemis-game.js:76-113 | Every button press and every frame keeps the invariant. |
| ArtemisProperties.PlayInv | scripts/artemis-game.js:450-453 | Any sequence of button presses and frames from a game satisfying the invariant keeps it. |
| ArtemisProperties.LivesCanGoNegative | scripts/artemis-game.js:210-218 | With one life, two asteroids striking in the same frame leave -1 lives. |
| Escape.ReplaceCharEffect | scripts/main.js:170 | Replacing a character by a text without it removes it entirely, and a string without the character is unchanged. |
| Escape.ReplaceCharConcat | scripts/main.js:170-174 | A single `replaceAll` distributes over concatenation. |
| Escape.EscapeChar | scripts/main.js:170-174 | The encoding of one character begins with `&` exactly for the five special characters; any other character stands for itself. |
| Escape.EscapedClean | scripts/main.js:168-175 | The per-character reference output is never shorter than its input and never contains `<`, `>`, `"` or `'`. |
| Escape.EscapeHtml | scripts/main.js:168-175 | The chain of five `replaceAll` calls never shortens its input. What the output is, is carried by `EscapeHtmlIsPerChar`, `EscapeHtmlRoundTrip` and `NoMarkupLeft`. |
| Escape.EscapeHtmlChar | scripts/main.js:170-174 | On one character the chained replacements give exactly that character's entity: no later replacement rewrites an earlier entity. |
| Escape.EscapeHtmlIsPerChar | scripts/main.js:168-175 | The chain of five `replaceAll` calls equals the per-character reference encoder on every string. |
| Escape.EscapeHtmlConcat | scripts/main.js:168-175 | Escaping distributes over concatenation. |
| Escape.NoMarkupLeft | scripts/main.js:168-175 | Escaped text contains no `<`, `>`, `"` or `'`. |
| Escape.PlainUnchanged | scripts/main.js:168-175 | Text without the five special characters is returned unchanged. |
| Escape.EscapeHtmlEmpty | scripts/main.js:168-175 | The output is empty exactly when the input is. |
| Escape.EscapeHtmlRoundTrip | scripts/main.js:168-175 | Decoding the five entities gives back the original string. |
| Escape.EscapeHtmlInjective | scripts/main.js:168-175 | Different strings never escape to the same text. |
| Escape.EscapeHtmlAmpersands | scripts/main.js:170-174 | Every `&` in the output begins one of the five entities, so no `&` is left bare. |
| Typing.Prefix | scripts/main.js:19-21 | The prefix has the clamped length and is a prefix of the role. |
| Typing.Advance | scripts/main.js:26-41 | The four branches of the step. The state is kept exactly when the index has passed the role's end while typing or its start while deleting; otherwise the index moves by at most one and the role by at most one. |
| Typing.TypeStep | scripts/main.js:14-45 | It fails exactly when there are no roles. From a bounded state it shows a prefix whose length is the new index, stays bounded and makes progress. It starts deleting only after the whole role is typed, moves to the next role only after deleting to the start, and schedules each branch's delay. A state typing past the role's end, or deleting below zero, is stuck and reuses the last delay. |
| Typing.RunBounded | scripts/main.js:26-41 | Any number of calls from a bounded state stay bounded. |
| Typing.TypingRun | scripts/main.js:26-28 | k calls while typing advance the index by k code units. |
| Typing.DeletingRun | scripts/main.js:29-31 | k calls while deleting lower the index by k code units. |
| Typing.FullCycle | scripts/main.js:26-41 | A role of n UTF-16 code units is done after 2n + 2 calls, at the next role, typing from 0. |
| Typing.CycleNotShorter | scripts/main.js:26-41 | Fewer than 2n + 2 calls never leave the role, so 2n + 2 is the exact length of a cycle. |
| News.NewsTags | scripts/main.js:196-202 | At most the first eight tags are shown, each escaped, in order. |
| News.LinkAnchor | scripts/main.js:208-214 | A link yields an anchor exactly when it has an address. The anchor's address is the escaped address, and its caption is the escaped caption, or "Link" when the caption is missing. |
| News.LinkAnchorSafe | scripts/main.js:208-214 | The rendered address is non-empty and free of `<` and `"`. The rendered caption is free of `<`, `>` and `"`. Both decode back to the link's own text, except that a missing caption reads "Link". |
| News.Anchors | scripts/main.js:206-215 | One anchor per link with an address. |
| News.AnchorsDecode | scripts/main.js:206-215 | Each anchor has a non-empty, markup-free address that decodes to the address of one of the links. |
| News.AnchorsConcat | scripts/main.js:206-215 | The anchors of two link lists, one after the other, are those of the first list followed by those of the second. |
| News.AnchorsOne | scripts/main.js:208-214 | A single link renders to exactly its own anchor, if any. With AnchorsConcat and LinkAnchor this fixes each anchor's address, caption and order. |
| News.AnchorAt | scripts/main.js:206-215 | A link with an address renders its own anchor right after the anchors of the links before it. |
| News.NewsLinks | scripts/main.js:204-216 | At most four anchors, drawn only from the first four links, one per link with an address. |
| News.NewsLinksIgnoreRest | scripts/main.js:207 | Links after the fourth never change what is rendered. |
| News.NewsLinksFew | scripts/main.js:204-216 | Up to four links render exactly their anchors, in order. |

## Left out

- Drawing (`draw`, `drawParallaxStars`, `drawRocket`), `updateUI` and every DOM write. `draw` also moves each particle and applies gravity to it (scripts/artemis-game.js:444-446) and turns each asteroid (:336). No gameplay decision reads those fields, so they are not modelled there. As a result, the model's particle positions, particle vertical speeds and asteroid rotations differ from the program's.
- `setupEventListeners`, the key map and the `requestAnimationFrame` loop: a frame's keys are an explicit parameter reduced to the four movement keys `a`, `d`, `w`, `s`; the loop at scripts/artemis-game.js:450-453 becomes a sequence of commands applied one by one (`ArtemisProperties.Play`).
- The overlay texts, button states and logging of `gameOver`: only its state change is modelled (`Artemis.EndGame`).
- `Math.random()` itself: any stream of reals is accepted; bounds that depend on draws in [0, 1) are stated under that hypothesis.
- Floating point: reals are exact, so rounding is not modelled. For example, a particle loses all its life after exactly 50 decays here, which doubles do not guarantee. `Math.PI` is the decimal 3.141592653589793; it only feeds the cosmetic rotation.
- The unused `ship.velocityY`, `difficulty` and the width/height duplicates of each entity: asteroids are square (`size`), canisters and the ship have fixed sizes.
- `isMobileDevice` (scripts/artemis-game.js:3-5), which only decides whether the game is shown: outside the modelled core.
- All other functions of `scripts/main.js`: the mobile menu, the back-to-top button, the scroll spy, news and project loading, project cards, date formatting with `formatDateYYYYMMDD`, the easter egg, and the title, text, date and HTML layout of a news card. They are outside the modelled core.
- The timer of the typing effect: `setTimeout` is replaced by the delay the step returns.
- ArtemisUpdate.Tick: its own contract only states that non-playing frames do nothing. What a playing frame does is stated by `ArtemisProperties.SimulateFacts`, `TickInv`, `TickScore` and `TickOutcome`, which assume the invariant.
- ArtemisUpdate.Refuelled: its bounds are stated for a tank already within [0, 100]. A tank above the maximum is not reachable, so its behaviour is not specified there.
- ArtemisProperties.Inv: it holds no bound on lives, because the code lets lives go below zero (see `LivesCanGoNegative`).
- ArtemisProperties.InitInv: it assumes a canvas wider than 30 and taller than 165, so that the starting ship lies inside its movement bands; smaller canvases are not covered.
- News.NewsTags: tags are strings here. `escapeHtml` first applies `String(str)` (scripts/main.js:169), so a number or other non-string tag (:200) is turned into its text; that conversion is not modelled.
- News.LinkAnchor: the same holds for a non-string link label (scripts/main.js:210); labels and addresses are strings here.
- Escape: strings are sequences of Unicode scalar values, while JavaScript strings are UTF-16 code units. A lone surrogate cannot be written here. The five replaced characters are single code units, so `replaceAll` acts the same on both views of any well-formed string.
- Typing: roles are sequences of UTF-16 code units, as JavaScript measures them, so a character outside the Basic Multilingual Plane counts twice and can be shown cut in half. Converting a role's text into code units is not modelled.

=== FILE: artemis.dfy ===
/**
 * State of the Artemis mini-game and the operations that act on it outside the per-tick update:
 * the four-state machine (`start`, `togglePause`, `restart`, `gameOver`), the two spawners,
 * the explosion burst and the score-driven difficulty law.
 *
 * Positions, speeds and fuel are exact reals standing in for the browser's doubles.
 * Every `Math.random()` call reads the next value of a caller-supplied stream `rng`;
 * a `cursor` says how many values have been used so far.
 */
module Artemis {
  import opened Geometry

  const MaxFuel: real := 100.0
  const MaxScore: int := 500
  const StartLives: int := 3
  const ShipWidth: real := 20.0
  const ShipHeight: real := 100.0
  const ShipSpeed: real := 5.0
  const AsteroidSize: real := 30.0
  const FuelSize: real := 20.0
  const FuelFall: real := 2.0
  const FuelChance: real := 0.015
  const BurstSize: nat := 8
  /** Values drawn from the random stream by one explosion: two velocity components per particle. */
  const BurstDraws: nat := 16
  /** The double nearest to pi, written as a decimal; only the cosmetic asteroid rotation uses it. */
  const Pi: real := 3.141592653589793

  datatype Phase = Idle | Playing | Paused | GameOver(victory: bool)

  /** The rocket; its size and speed are the constants ShipWidth, ShipHeight and ShipSpeed. */
  datatype Ship = Ship(x: real, y: real)

  /** An asteroid; it is square, `size` being both its width and its height. `kind` picks one of three looks. */
  datatype Asteroid = Asteroid(x: real, y: real, size: real, speed: real, rotation: real, spin: real, kind: int)

  /** A fuel canister, FuelSize wide and high. */
  datatype FuelItem = FuelItem(x: real, y: real, speed: real, bobbing: real)

  datatype Color = Red | Yellow

  datatype Particle = Particle(x: real, y: real, vx: real, vy: real, life: real, color: Color)

  /**
   * The whole game. `spawnCounter` is the source's `asteroidSpawnRate` tick counter;
   * `width` and `height` are the canvas dimensions.
   */
  datatype Game = Game(
    phase: Phase,
    score: int,
    lives: int,
    fuel: real,
    spawnCounter: int,
    ship: Ship,
    asteroids: seq<Asteroid>,
    fuelItems: seq<FuelItem>,
    particles: seq<Particle>,
    scrollOffset: real,
    width: real,
    height: real)

  /** The `Math.random()` stream: the n-th call returns rng(n). */
  type Random = nat -> real

  /** A stream whose every value lies in [0, 1), as `Math.random()` promises. */
  ghost predicate ValidRandom(rng: Random)
  {
    forall n: nat :: 0.0 <= rng(n) < 1.0
  }

  /** A game together with the number of random values consumed so far. */
  datatype Step = Step(game: Game, cursor: nat)

  function Min(a: real, b: real): real { if a <= b then a else b }
  function Max(a: real, b: real): real { if a >= b then a else b }

  function ShipRect(s: Ship): Rect { Rect(s.x, s.y, ShipWidth, ShipHeight) }
  function AsteroidRect(a: Asteroid): Rect { Rect(a.x, a.y, a.size, a.size) }
  function FuelRect(f: FuelItem): Rect { Rect(f.x, f.y, FuelSize, FuelSize) }

  /** The state built by the constructor for a canvas of the given size. */
  function Init(width: real, height: real): (g: Game)
    ensures g.phase == Idle && g.score == 0 && g.lives == StartLives && g.fuel == MaxFuel
    ensures g.spawnCounter == 0 && g.scrollOffset == 0.0
    ensures g.ship.x == width / 2.0 && g.ship.y == height - 120.0
    ensures g.asteroids == [] && g.fuelItems == [] && g.particles == []
    ensures g.width == width && g.height == height
  {
    Game(Idle, 0, StartLives, MaxFuel, 0, Ship(width / 2.0, height - 120.0), [], [], [], 0.0, width, height)
  }

  // ---------------------------------------------------------------------------
  // Difficulty law
  // ---------------------------------------------------------------------------

  /** Asteroid size factor: grows linearly from 1 at score 0 to 1.4 at the goal. */
  function SizeMultiplier(score: int): (m: real)
    ensures 0 <= score <= MaxScore ==> 1.0 <= m <= 1.4
    ensures score >= 0 ==> m >= 1.0
  {
    1.0 + (score as real / 500.0) * 0.4
  }

  /** Asteroid speed factor: grows linearly from 1 at score 0 to 1.6 at the goal. */
  function SpeedMultiplier(score: int): (m: real)
    ensures 0 <= score <= MaxScore ==> 1.0 <= m <= 1.6
    ensures score >= 0 ==> m >= 1.0
  {
    1.0 + (score as real / 500.0) * 0.6
  }

  /** Fuel burnt per tick: grows linearly from 0.08 at score 0 to 0.14 at the goal. */
  function FuelDrain(score: int): (d: real)
    ensures 0 <= score <= MaxScore ==> 0.08 <= d <= 0.14
    ensures score >= 0 ==> d >= 0.08
  {
    0.08 + (score as real / 500.0) * 0.06
  }

  /** Ticks between automatic asteroid spawns: 30, one less per 100 points, never below 15. */
  function SpawnThreshold(score: int): (t: int)
    ensures t >= 15
    ensures score >= 0 ==> t <= 30
    ensures 0 <= score < 100 ==> t == 30
    ensures score >= 1500 ==> t == 15
  {
    var stepped := 30 - score / 100;
    if stepped < 15 then 15 else stepped
  }

  /** Asteroids spawned at a higher score are never smaller nor slower. */
  lemma ScalingMonotone(s1: int, s2: int)
    requires s1 <= s2
    ensures SizeMultiplier(s1) <= SizeMultiplier(s2)
    ensures SpeedMultiplier(s1) <= SpeedMultiplier(s2)
  {
  }

  /** A higher score never burns less fuel per tick, and never waits longer between asteroid spawns. */
  lemma PaceMonotone(s1: int, s2: int)
    requires s1 <= s2
    ensures FuelDrain(s1) <= FuelDrain(s2)
    ensures SpawnThreshold(s2) <= SpawnThreshold(s1)
  {
    assert s1 / 100 <= s2 / 100 by { DivMonotone(s1, s2, 100); }
  }

  lemma DivMonotone(a: int, b: int, d: int)
    requires a <= b && d > 0
    ensures a / d <= b / d
  {
    var q := b / d;
    assert b < d * (q + 1);
    BelowMultiple(a, d, q + 1);
  }

  lemma MulMonotone(d: int, x: int, y: int)
    requires d > 0
    ensures x <= y ==> d * x <= d * y
  {
  }

  /** x below d * m means its Euclidean quotient by d is below m. */
  lemma BelowMultiple(x: int, d: int, m: int)
    requires d > 0 && x < d * m
    ensures x / d < m
  {
    var q := x / d;
    assert x == d * q + x % d;
    assert d * q <= x;
    MulMonotone(d, m, q);
  }

  // ---------------------------------------------------------------------------
  // Spawning and explosions
  // ---------------------------------------------------------------------------

  lemma ScaleWithin(d: real, w: real)
    ensures 0.0 <= d < 1.0 && w >= 0.0 ==> 0.0 <= d * w <= w
  {
  }

  /** The asteroid `spawnAsteroid` builds from five random values: x, speed, rotation, spin and kind. */
  function NewAsteroid(score: int, width: real, rng: Random, k: nat): (a: Asteroid)
    ensures a.y == -AsteroidSize
    ensures a.size == AsteroidSize * SizeMultiplier(score)
    ensures 0.0 <= rng(k) < 1.0 && width >= AsteroidSize ==> 0.0 <= a.x <= width - AsteroidSize
    ensures 0.0 <= rng(k + 1) && score >= 0 ==> a.speed >= 2.0 * SpeedMultiplier(score)
    ensures 0.0 <= rng(k + 4) < 1.0 ==> 0 <= a.kind <= 2
  {
    var x, w := rng(k), width - AsteroidSize;
    var v, m := rng(k + 1), SpeedMultiplier(score);
    ScaleWithin(x, w);
    SpeedAtLeastBase(v, m);
    Asteroid(
      x * w,
      -AsteroidSize,
      AsteroidSize * SizeMultiplier(score),
      (2.0 + v * 2.0) * m,
      rng(k + 2) * Pi * 2.0,
      rng(k + 3) * 0.1 - 0.05,
      (rng(k + 4) * 3.0).Floor)
  }

  /**
   * `spawnAsteroid`: only while playing, appends one asteroid above the top edge whose size and
   * speed follow the difficulty law; it reads five random values.
   */
  function SpawnAsteroid(g: Game, rng: Random, k: nat): (r: Step)
    ensures g.phase != Playing ==> r == Step(g, k)
    ensures g.phase == Playing ==>
      && r.cursor == k + 5
      && r.game.(asteroids := g.asteroids) == g
      && r.game.asteroids == g.asteroids + [NewAsteroid(g.score, g.width, rng, k)]
  {
    if g.phase != Playing then Step(g, k)
    else Step(g.(asteroids := g.asteroids + [NewAsteroid(g.score, g.width, rng, k)]), k + 5)
  }

  lemma SpeedAtLeastBase(d: real, m: real)
    ensures d >= 0.0 && m >= 0.0 ==> (2.0 + d * 2.0) * m >= 2.0 * m
  {
    assert (2.0 + d * 2.0) * m == 2.0 * m + 2.0 * (d * m);
  }

  /** The canister `spawnFuel` places from its second random value. */
  function NewFuelItem(width: real, rng: Random, k: nat): (f: FuelItem)
    ensures f.y == -FuelSize && f.speed == FuelFall && f.bobbing == 0.0
    ensures 0.0 <= rng(k) < 1.0 && width >= FuelSize ==> 0.0 <= f.x <= width - FuelSize
  {
    var x, w := rng(k), width - FuelSize;
    ScaleWithin(x, w);
    FuelItem(x * w, -FuelSize, FuelFall, 0.0)
  }

  /**
   * `spawnFuel`: with the first random value below 0.015 a canister appears above the top edge
   * (a second value places it); otherwise nothing changes. The game phase is not consulted.
   */
  function SpawnFuel(g: Game, rng: Random, k: nat): (r: Step)
    ensures rng(k) < FuelChance <==> |r.game.fuelItems| == |g.fuelItems| + 1
    ensures rng(k) >= FuelChance ==> r == Step(g, k + 1)
    ensures rng(k) < FuelChance ==>
      && r.cursor == k + 2
      && r.game.(fuelItems := g.fuelItems) == g
      && r.game.fuelItems == g.fuelItems + [NewFuelItem(g.width, rng, k + 1)]
  {
    if rng(k) < FuelChance then Step(g.(fuelItems := g.fuelItems + [NewFuelItem(g.width, rng, k + 1)]), k + 2)
    else Step(g, k + 1)
  }

  /** One particle of a burst: its velocity components come from two consecutive random values. */
  function BurstParticle(x: real, y: real, color: Color, rng: Random, k: nat, i: nat): (p: Particle)
    ensures p.x == x && p.y == y && p.life == 1.0 && p.color == color
    ensures ValidRandom(rng) ==> -4.0 <= p.vx < 4.0 && -4.0 <= p.vy < 4.0
  {
    Particle(x, y, (rng(k + 2 * i) - 0.5) * 8.0, (rng(k + 2 * i + 1) - 0.5) * 8.0, 1.0, color)
  }

  /** `createExplosion`: eight fresh particles of full life at (x, y); it reads BurstDraws random values. */
  function Explosion(x: real, y: real, color: Color, rng: Random, k: nat): (ps: seq<Particle>)
    ensures |ps| == BurstSize
    ensures forall i :: 0 <= i < |ps| ==> ps[i].x == x && ps[i].y == y && ps[i].life == 1.0 && ps[i].color == color
    ensures ValidRandom(rng) ==> forall i :: 0 <= i < |ps| ==> -4.0 <= ps[i].vx < 4.0 && -4.0 <= ps[i].vy < 4.0
  {
    seq(BurstSize, i requires 0 <= i < BurstSize => BurstParticle(x, y, color, rng, k, i))
  }

  // ---------------------------------------------------------------------------
  // State machine
  // ---------------------------------------------------------------------------

  /** `start`: from Idle only, begin playing and seed one asteroid; otherwise nothing happens. */
  function Start(g: Game, rng: Random): (r: Game)
    ensures g.phase != Idle ==> r == g
    ensures g.phase == Idle ==>
      && r.phase == Playing
      && r.asteroids == g.asteroids + [NewAsteroid(g.score, g.width, rng, 0)]
      && r.(phase := g.phase, asteroids := g.asteroids) == g
  {
    if g.phase == Idle then SpawnAsteroid(g.(phase := Playing), rng, 0).game else g
  }

  /** `togglePause`: swaps Playing and Paused and leaves every other phase, and everything else, alone. */
  function TogglePause(g: Game): (r: Game)
    ensures r.(phase := g.phase) == g
    ensures r.phase == Paused <==> g.phase == Playing
    ensures r.phase == Playing <==> g.phase == Paused
    ensures g.phase != Playing && g.phase != Paused ==> r == g
  {
    match g.phase
    case Playing => g.(phase := Paused)
    case Paused => g.(phase := Playing)
    case _ => g
  }

  /**
   * `restart`: from any phase, back to Idle with a fresh score, lives, full tank, the ship's left edge at
   * half the canvas width and no entities. The spawn counter, the ship's vertical position and the scroll
   * offset are kept.
   */
  function Restart(g: Game): (r: Game)
    ensures r.phase == Idle && r.score == 0 && r.lives == StartLives && r.fuel == MaxFuel
    ensures r.ship == Ship(g.width / 2.0, g.ship.y)
    ensures r.asteroids == [] && r.fuelItems == [] && r.particles == []
    ensures r.spawnCounter == g.spawnCounter && r.scrollOffset == g.scrollOffset
    ensures r.width == g.width && r.height == g.height
  {
    g.(score := 0, lives := StartLives, fuel := MaxFuel, ship := g.ship.(x := g.width / 2.0),
       particles := [], fuelItems := [], asteroids := [], phase := Idle)
  }

  /** The state part of `gameOver(victory)`: the phase records the end and the flag shown on the overlay. */
  function EndGame(g: Game, victory: bool): (r: Game)
    ensures r.phase == GameOver(victory)
    ensures r.(phase := g.phase) == g
  {
    g.(phase := GameOver(victory))
  }

  /** Pausing twice gives back the original game, from any phase. */
  lemma TogglePauseInvolution(g: Game)
    ensures TogglePause(TogglePause(g)) == g
  {
  }

  /** Restarting twice is the same as restarting once. */
  lemma RestartIdempotent(g: Game)
    ensures Restart(Restart(g)) == Restart(g)
  {
  }

  /** A second `start` with no restart in between does nothing. */
  lemma StartTwiceIsStartOnce(g: Game, rng1: Random, rng2: Random)
    ensures Start(Start(g, rng1), rng2) == Start(g, rng1)
  {
  }
}

=== FILE: artemis_properties.dfy ===
/**
 * Whole-game properties of the Artemis model: the invariant every operation keeps, the allowed
 * phase transitions, and the consequences of the asteroid pass not stopping at the end of the game.
 */
module ArtemisProperties {
  import opened Artemis
  import opened ArtemisUpdate

  /** The canvas leaves room for the ship's starting position inside its movement bands. */
  predicate CanvasFits(width: real, height: real)
  {
    width > 2.0 * (ShipWidth - ShipSpeed) && height > 120.0 + TopMargin - ShipSpeed
  }

  /**
   * What every reachable game satisfies: the tank between empty and full, a non-negative score, the
   * spawn counter within the largest threshold, the ship inside its bands, only live particles, and
   * only asteroids and canisters whose top edge is above the bottom of the canvas.
   * Lives are deliberately absent: several strikes in one tick can take them below zero.
   */
  predicate Inv(g: Game)
  {
    && CanvasFits(g.width, g.height)
    && 0.0 <= g.fuel <= MaxFuel
    && g.score >= 0
    && 0 <= g.spawnCounter <= 30
    && InHorizontalBand(g.ship.x, g.width)
    && InVerticalBand(g.ship.y, g.height)
    && (forall i :: 0 <= i < |g.particles| ==> 0.0 < g.particles[i].life <= 1.0)
    && (forall i :: 0 <= i < |g.asteroids| ==> g.asteroids[i].y < g.height)
    && (forall i :: 0 <= i < |g.fuelItems| ==> g.fuelItems[i].y < g.height)
  }

  lemma InitInv(width: real, height: real)
    requires CanvasFits(width, height)
    ensures Inv(Init(width, height))
  {
  }

  lemma RestartInv(g: Game)
    requires Inv(g)
    ensures Inv(Restart(g))
  {
  }

  lemma StartInv(g: Game, rng: Random)
    requires Inv(g)
    ensures Inv(Start(g, rng))
  {
    var r := Start(g, rng);
    forall i | 0 <= i < |r.asteroids|
      ensures r.asteroids[i].y < r.height
    {
      if i < |g.asteroids| {
        assert r.asteroids[i] == g.asteroids[i];
      }
    }
  }

  lemma TogglePauseInv(g: Game)
    requires Inv(g)
    ensures Inv(TogglePause(g))
  {
  }

  /** Movement, drain and both spawners keep the invariant, the score, the phase and the canvas. */
  lemma PrepareInv(g: Game, keys: Keys, rng: Random)
    requires Inv(g)
    ensures var p := Prepare(g, keys, rng).game;
      && Inv(p) && p.score == g.score && p.phase == g.phase && p.width == g.width && p.height == g.height
  {
    var d := Drain(MoveShip(g, keys));
    var sp := Spawner(d, rng, 0);
    assert 0 <= sp.game.spawnCounter <= 30;
    var p := SpawnFuel(sp.game, rng, sp.cursor).game;
    forall i | 0 <= i < |p.asteroids|
      ensures p.asteroids[i].y < p.height
    {
      if i < |g.asteroids| {
        assert p.asteroids[i] == g.asteroids[i];
      }
    }
    forall i | 0 <= i < |p.fuelItems|
      ensures p.fuelItems[i].y < p.height
    {
      if i < |g.fuelItems| {
        assert p.fuelItems[i] == g.fuelItems[i];
      }
    }
  }

  /** The asteroid pass keeps the invariant, the score and the canvas; it can only end the game with a loss. */
  lemma {:induction false} AsteroidStageInv(p: Game, rng: Random, k: nat)
    requires Inv(p)
    ensures var q := AsteroidPass(p.(asteroids := []), p.asteroids, rng, k).game;
      && Inv(q) && q.score == p.score && q.width == p.width && q.height == p.height
      && (q.phase == p.phase || q.phase == GameOver(false))
  {
    var p0 := p.(asteroids := []);
    AsteroidPassFrame(p0, p.asteroids, rng, k);
    AsteroidPassBursts(p0, p.asteroids, rng, k);
    AsteroidPassPhase(p0, p.asteroids, rng, k);
    AsteroidPassSurvivors(p0, p.asteroids, rng, k);
    SurvivorsExactly(p.ship, p.height, p.asteroids);
    var q := AsteroidPass(p0, p.asteroids, rng, k).game;
    forall i | 0 <= i < |q.asteroids|
      ensures q.asteroids[i].y < q.height
    {
      assert q.asteroids[i] in Survivors(p.ship, p.height, p.asteroids);
    }
    forall i | 0 <= i < |q.particles|
      ensures 0.0 < q.particles[i].life <= 1.0
    {
      if i < |p.particles| {
        assert q.particles[i] == q.particles[..|p.particles|][i];
      }
    }
  }

  /** The canister pass keeps the invariant, the phase and the canvas, and adds whole pickups to the score. */
  lemma {:induction false} FuelStageInv(q: Game, rng: Random, k: nat)
    requires Inv(q)
    ensures var s := FuelPass(q.(fuelItems := []), q.fuelItems, rng, k).game;
      && Inv(s) && s.phase == q.phase && s.width == q.width && s.height == q.height
      && s.score == q.score + FuelPoints * Pickups(q.ship, q.fuelItems)
  {
    var q0 := q.(fuelItems := []);
    FuelPassFrame(q0, q.fuelItems, rng, k);
    FuelPassBursts(q0, q.fuelItems, rng, k);
    FuelPassRemaining(q0, q.fuelItems, rng, k);
    RemainingExactly(q.ship, q.height, q.fuelItems);
    var s := FuelPass(q0, q.fuelItems, rng, k).game;
    forall i | 0 <= i < |s.fuelItems|
      ensures s.fuelItems[i].y < s.height
    {
      assert s.fuelItems[i] in Remaining(q.ship, q.height, q.fuelItems);
    }
    forall i | 0 <= i < |s.particles|
      ensures 0.0 < s.particles[i].life <= 1.0
    {
      if i < |q.particles| {
        assert s.particles[i] == s.particles[..|q.particles|][i];
      }
    }
  }

  /** Facts about the state reached before the end-of-game checks, from a game that keeps the invariant. */
  lemma SimulateFacts(g: Game, keys: Keys, rng: Random)
    requires Inv(g)
    ensures var s := Simulate(g, keys, rng);
      && Inv(s)
      && s.width == g.width && s.height == g.height
      && s.score >= g.score
      && (s.score - g.score) % FuelPoints == 0
      && (s.phase == g.phase || s.phase == GameOver(false))
  {
    PrepareInv(g, keys, rng);
    SimulateStages(g, keys, rng);
    StagesFacts(g, Prepare(g, keys, rng), rng);
  }

  /** The facts of SimulateFacts, stated of the two passes run after a preparation that kept the invariant. */
  lemma StagesFacts(g: Game, prepared: Step, rng: Random)
    requires Inv(prepared.game)
    requires prepared.game.score == g.score && prepared.game.phase == g.phase
    requires prepared.game.width == g.width && prepared.game.height == g.height
    ensures var p := prepared.game;
      var rocks := AsteroidPass(p.(asteroids := []), p.asteroids, rng, prepared.cursor);
      var q := rocks.game;
      var s := FuelPass(q.(fuelItems := []), q.fuelItems, rng, rocks.cursor).game;
      && Inv(s)
      && s.width == g.width && s.height == g.height
      && s.score >= g.score
      && (s.score - g.score) % FuelPoints == 0
      && (s.phase == g.phase || s.phase == GameOver(false))
  {
    var p := prepared.game;
    var rocks := AsteroidPass(p.(asteroids := []), p.asteroids, rng, prepared.cursor);
    var q := rocks.game;
    AsteroidStageInv(p, rng, prepared.cursor);
    var s := FuelPass(q.(fuelItems := []), q.fuelItems, rng, rocks.cursor).game;
    FuelStageInv(q, rng, rocks.cursor);
    var n := Pickups(q.ship, q.fuelItems);
    assert s.score - g.score == FuelPoints * n;
    WholePickups(s.score - g.score, n);
  }

  /** `Simulate` is the preparation followed by the asteroid pass and then the canister pass. */
  lemma SimulateStages(g: Game, keys: Keys, rng: Random)
    ensures var prepared := Prepare(g, keys, rng);
      var p := prepared.game;
      var rocks := AsteroidPass(p.(asteroids := []), p.asteroids, rng, prepared.cursor);
      var q := rocks.game;
      Simulate(g, keys, rng) == FuelPass(q.(fuelItems := []), q.fuelItems, rng, rocks.cursor).game
  {
  }

  lemma WholePickups(gain: int, n: nat)
    requires gain == FuelPoints * n
    ensures gain >= 0 && gain % FuelPoints == 0
  {
  }

  /** One tick keeps the invariant, whatever the keys and the random values. */
  lemma TickInv(g: Game, keys: Keys, rng: Random)
    requires Inv(g)
    ensures Inv(Tick(g, keys, rng))
  {
    if g.phase == Playing {
      SimulateFacts(g, keys, rng);
      var s := Simulate(g, keys, rng);
      var r := Tick(g, keys, rng);
      if s.fuel > 0.0 && s.score < MaxScore {
        assert r.particles == Decay(s.particles);
        DecayKeeps(s.particles);
      }
    }
  }

  /** The score never falls during a tick and only grows in whole pickups. */
  lemma TickScore(g: Game, keys: Keys, rng: Random)
    requires Inv(g)
    ensures Tick(g, keys, rng).score >= g.score
    ensures (Tick(g, keys, rng).score - g.score) % FuelPoints == 0
  {
    if g.phase == Playing {
      SimulateFacts(g, keys, rng);
    }
  }

  /**
   * How a playing tick ends: an empty tank loses even with lives left, and is checked before the goal;
   * reaching the goal with fuel left wins; otherwise the phase is whatever the asteroid pass left, which is
   * still Playing or a loss.
   */
  lemma TickOutcome(g: Game, keys: Keys, rng: Random)
    requires Inv(g) && g.phase == Playing
    ensures var s := Simulate(g, keys, rng);
      var r := Tick(g, keys, rng);
      && (s.fuel <= 0.0 ==> r.phase == GameOver(false))
      && (s.fuel > 0.0 && s.score >= MaxScore ==> r.phase == GameOver(true))
      && (s.fuel > 0.0 && s.score < MaxScore ==> r.phase in {Playing, GameOver(false)})
  {
    SimulateFacts(g, keys, rng);
  }

  /** A finished game stays finished: ticks, starts and pauses leave it alone; only restart leaves the phase. */
  lemma GameOverIsFinal(g: Game, keys: Keys, rng: Random)
    requires g.phase.GameOver?
    ensures Tick(g, keys, rng) == g && Start(g, rng) == g && TogglePause(g) == g
    ensures Restart(g).phase == Idle
  {
  }

  // ---------------------------------------------------------------------------
  // The state machine
  // ---------------------------------------------------------------------------

  /** The inputs the game reacts to: the three buttons and the animation frame. */
  datatype Command = StartButton | PauseButton | RestartButton | Frame(keys: Keys)

  /** One command applied to the game; each command reads its own random stream from the start. */
  function Apply(g: Game, c: Command, rng: Random): Game
  {
    match c
    case StartButton => Start(g, rng)
    case PauseButton => TogglePause(g)
    case RestartButton => Restart(g)
    case Frame(keys) => Tick(g, keys, rng)
  }

  /** A session: commands applied in order, each with its random stream. */
  function Play(g: Game, cmds: seq<(Command, Random)>): Game
    decreases |cmds|
  {
    if cmds == [] then g else Play(Apply(g, cmds[0].0, cmds[0].1), cmds[1..])
  }

  /**
   * The phase changes each command allows. Start only takes Idle to Playing; pause only swaps Playing
   * and Paused; restart always lands in Idle; a frame leaves every phase but Playing alone, and from
   * Playing either keeps playing or finishes the game.
   */
  predicate Allowed(c: Command, from: Phase, to: Phase)
  {
    match c
    case StartButton => to == (if from == Idle then Playing else from)
    case PauseButton => to == (if from == Playing then Paused else if from == Paused then Playing else from)
    case RestartButton => to == Idle
    case Frame(_) => if from == Playing then to == Playing || to.GameOver? else to == from
  }

  /** Every command moves the phase along one of its own edges. */
  lemma PhaseTransitions(g: Game, c: Command, rng: Random)
    requires Inv(g)
    ensures Allowed(c, g.phase, Apply(g, c, rng).phase)
  {
    if c.Frame? && g.phase == Playing {
      TickOutcome(g, c.keys, rng);
      SimulateFacts(g, c.keys, rng);
    }
  }

  /** Every command keeps the invariant. */
  lemma ApplyInv(g: Game, c: Command, rng: Random)
    requires Inv(g)
    ensures Inv(Apply(g, c, rng))
  {
    match c
    case StartButton => StartInv(g, rng);
    case PauseButton => TogglePauseInv(g);
    case RestartButton => RestartInv(g);
    case Frame(keys) => TickInv(g, keys, rng);
  }

  /** A whole session from a game that keeps the invariant keeps it, whatever the commands and random values. */
  lemma {:induction false} PlayInv(g: Game, cmds: seq<(Command, Random)>)
    requires Inv(g)
    ensures Inv(Play(g, cmds))
    decreases |cmds|
  {
    if cmds != [] {
      ApplyInv(g, cmds[0].0, cmds[0].1);
      PlayInv(Apply(g, cmds[0].0, cmds[0].1), cmds[1..]);
    }
  }

  /** A random stream that always returns zero. */
  function Zeros(): Random { (n: nat) => 0.0 }

  /**
   * Two asteroids striking in the same tick with one life left take the lives to -1: the pass does not
   * stop when the game ends, so no "lives never negative" invariant holds.
   */
  lemma LivesCanGoNegative()
    ensures exists g: Game, rocks: seq<Asteroid> ::
      g.lives == 1 && AsteroidPass(g, rocks, Zeros(), 0).game.lives == -1
  {
    var g := Init(800.0, 600.0).(phase := Playing, lives := 1);
    var rock := Asteroid(g.ship.x, g.ship.y, 30.0, 0.0, 0.0, 0.0, 0);
    assert Strikes(g.ship, rock);
    assert StrikeCount(g.ship, [rock, rock]) == 2 by {
      assert [rock, rock][1..] == [rock];
    }
    assert AsteroidPass(g, [rock, rock], Zeros(), 0).game.lives == -1;
  }
}

=== FILE: artemis_update.dfy ===
/**
 * The per-tick `update` of the Artemis game: ship movement, fuel drain, the asteroid spawner,
 * the fuel spawner, the asteroid and canister passes with their collision payouts, the
 * end-of-game checks and particle decay.
 */
module ArtemisUpdate {
  import opened Geometry
  import opened Artemis

  /** The four movement keys of the pressed-key map: a, d, w and s. */
  datatype Keys = Keys(left: bool, right: bool, up: bool, down: bool)

  /** Highest ship position: the ship may not go above y = TopMargin. */
  const TopMargin: real := 50.0
  /** Gap kept between the ship and the bottom of the canvas. */
  const BottomMargin: real := 20.0
  const LifeStep: real := 0.02
  const FuelBonus: real := 30.0
  const FuelPoints: int := 10

  // ---------------------------------------------------------------------------
  // Ship movement
  // ---------------------------------------------------------------------------

  /** The band the ship's left edge keeps to: each edge guard lets it overshoot by at most one step. */
  predicate InHorizontalBand(x: real, width: real)
  {
    -ShipSpeed < x < width - ShipWidth + ShipSpeed
  }

  /** The band the ship's top edge keeps to. */
  predicate InVerticalBand(y: real, height: real)
  {
    TopMargin - ShipSpeed < y < height - ShipHeight - BottomMargin + ShipSpeed
  }

  /**
   * Ship movement: left, then right, then up, then down, each one step of ShipSpeed guarded by its
   * edge test on the position reached so far; a vertical step moves the parallax backdrop by half a step
   * the other way.
   */
  function MoveShip(g: Game, keys: Keys): (r: Game)
    ensures r.(ship := g.ship, scrollOffset := g.scrollOffset) == g
    ensures r.scrollOffset == g.scrollOffset + (g.ship.y - r.ship.y) / 2.0
    ensures r.ship.x in {g.ship.x - ShipSpeed, g.ship.x, g.ship.x + ShipSpeed}
    ensures r.ship.y in {g.ship.y - ShipSpeed, g.ship.y, g.ship.y + ShipSpeed}
    // a single key of an axis takes one step when its edge guard allows, and otherwise the ship stays put
    ensures keys.left && !keys.right ==> r.ship.x == (if g.ship.x > 0.0 then g.ship.x - ShipSpeed else g.ship.x)
    ensures keys.right && !keys.left ==>
      r.ship.x == (if g.ship.x < g.width - ShipWidth then g.ship.x + ShipSpeed else g.ship.x)
    ensures keys.up && !keys.down ==> r.ship.y == (if g.ship.y > TopMargin then g.ship.y - ShipSpeed else g.ship.y)
    ensures keys.down && !keys.up ==>
      r.ship.y == (if g.ship.y < g.height - ShipHeight - BottomMargin then g.ship.y + ShipSpeed else g.ship.y)
    // with both keys of an axis held, the second step is guarded on the position the first one reached:
    // when both steps are taken they cancel, otherwise the one allowed step is taken
    ensures keys.left && keys.right && g.ship.x > 0.0 ==>
      r.ship.x == (if g.ship.x - ShipSpeed < g.width - ShipWidth then g.ship.x else g.ship.x - ShipSpeed)
    ensures keys.left && keys.right && g.ship.x <= 0.0 ==>
      r.ship.x == (if g.ship.x < g.width - ShipWidth then g.ship.x + ShipSpeed else g.ship.x)
    ensures keys.up && keys.down && g.ship.y > TopMargin ==>
      r.ship.y == (if g.ship.y - ShipSpeed < g.height - ShipHeight - BottomMargin then g.ship.y else g.ship.y - ShipSpeed)
    ensures keys.up && keys.down && g.ship.y <= TopMargin ==>
      r.ship.y == (if g.ship.y < g.height - ShipHeight - BottomMargin then g.ship.y + ShipSpeed else g.ship.y)
    ensures !keys.left && !keys.right ==> r.ship.x == g.ship.x
    ensures !keys.up && !keys.down ==> r.ship.y == g.ship.y
    ensures InHorizontalBand(g.ship.x, g.width) ==> InHorizontalBand(r.ship.x, g.width)
    ensures InVerticalBand(g.ship.y, g.height) ==> InVerticalBand(r.ship.y, g.height)
  {
    var x0, y0, off0 := g.ship.x, g.ship.y, g.scrollOffset;
    var x1 := if keys.left && x0 > 0.0 then x0 - ShipSpeed else x0;
    var x2 := if keys.right && x1 < g.width - ShipWidth then x1 + ShipSpeed else x1;
    var climb := keys.up && y0 > TopMargin;
    var y1 := if climb then y0 - ShipSpeed else y0;
    var off1 := if climb then off0 + ShipSpeed * 0.5 else off0;
    var dive := keys.down && y1 < g.height - ShipHeight - BottomMargin;
    var y2 := if dive then y1 + ShipSpeed else y1;
    var off2 := if dive then off1 - ShipSpeed * 0.5 else off1;
    g.(ship := Ship(x2, y2), scrollOffset := off2)
  }

  // ---------------------------------------------------------------------------
  // Fuel drain and the asteroid spawner
  // ---------------------------------------------------------------------------

  /** The per-tick drain, clamped so that the tank never goes below empty. */
  function Drain(g: Game): (r: Game)
    ensures r.(fuel := g.fuel) == g
    ensures r.fuel >= 0.0
    ensures r.fuel == 0.0 <==> g.fuel <= FuelDrain(g.score)
    // a tank holding more than the drain loses exactly the score's drain
    ensures g.fuel > FuelDrain(g.score) ==> r.fuel == g.fuel - FuelDrain(g.score)
    ensures g.score >= 0 && g.fuel <= MaxFuel ==> r.fuel <= MaxFuel
    ensures g.score >= 0 && g.fuel > 0.0 ==> r.fuel < g.fuel
  {
    g.(fuel := Max(0.0, g.fuel - FuelDrain(g.score)))
  }

  /**
   * The tick counter of the asteroid spawner: it counts up, and once it exceeds the score's threshold
   * one asteroid is spawned and the counter starts again from 0.
   */
  function Spawner(g: Game, rng: Random, k: nat): (r: Step)
    ensures var fires := g.spawnCounter + 1 > SpawnThreshold(g.score);
      && (g.spawnCounter >= 0 ==> (r.game.spawnCounter == 0 <==> fires))
      && (!fires ==> r == Step(g.(spawnCounter := g.spawnCounter + 1), k))
      && (fires && g.phase == Playing ==>
            && r.game.asteroids == g.asteroids + [NewAsteroid(g.score, g.width, rng, k)]
            && r.cursor == k + 5)
      && (fires && g.phase != Playing ==> r.game.asteroids == g.asteroids && r.cursor == k)
      && r.game.(asteroids := g.asteroids, spawnCounter := g.spawnCounter) == g
    ensures g.spawnCounter <= 30 && g.score >= 0 ==> r.game.spawnCounter <= 30
  {
    var count := g.spawnCounter + 1;
    if count > SpawnThreshold(g.score) then
      var s := SpawnAsteroid(g, rng, k);
      Step(s.game.(spawnCounter := 0), s.cursor)
    else
      Step(g.(spawnCounter := count), k)
  }

  // ---------------------------------------------------------------------------
  // The asteroid pass
  // ---------------------------------------------------------------------------

  /** An asteroid one tick further down its path. */
  function Fall(a: Asteroid): (b: Asteroid)
    ensures b.y == a.y + a.speed
    ensures b.(y := a.y, rotation := a.rotation) == a
  {
    a.(y := a.y + a.speed, rotation := a.rotation + a.spin)
  }

  /** The asteroid, after its fall, overlaps the ship. */
  predicate Strikes(ship: Ship, a: Asteroid)
  {
    Collides(ShipRect(ship), AsteroidRect(Fall(a)))
  }

  /** How many of the asteroids strike the ship this tick. */
  function StrikeCount(ship: Ship, rocks: seq<Asteroid>): (n: nat)
    ensures n <= |rocks|
  {
    if rocks == [] then 0 else (if Strikes(ship, rocks[0]) then 1 else 0) + StrikeCount(ship, rocks[1..])
  }

  /** The asteroids, fallen, that miss the ship and are still above the bottom edge, in their original order. */
  function Survivors(ship: Ship, height: real, rocks: seq<Asteroid>): (r: seq<Asteroid>)
    ensures |r| + StrikeCount(ship, rocks) <= |rocks|
  {
    if rocks == [] then []
    else
      var a := Fall(rocks[0]);
      var rest := Survivors(ship, height, rocks[1..]);
      if !Strikes(ship, rocks[0]) && a.y < height then [a] + rest else rest
  }

  /** The survivors are exactly the fallen asteroids that miss the ship and are still above the bottom edge. */
  lemma {:induction false} SurvivorsExactly(ship: Ship, height: real, rocks: seq<Asteroid>)
    ensures var r := Survivors(ship, height, rocks);
      && (forall i :: 0 <= i < |rocks| && !Strikes(ship, rocks[i]) && Fall(rocks[i]).y < height ==> Fall(rocks[i]) in r)
      && (forall a :: a in r ==> a.y < height && exists i :: 0 <= i < |rocks| && a == Fall(rocks[i]) && !Strikes(ship, rocks[i]))
    decreases |rocks|
  {
    if rocks != [] {
      SurvivorsExactly(ship, height, rocks[1..]);
      assert forall i :: 1 <= i < |rocks| ==> rocks[i] == rocks[1..][i - 1];
    }
  }

  /**
   * The filter's callback for one asteroid that has already fallen. A strike costs a life, bursts eight
   * red particles where the asteroid now is and drops it; a strike that leaves no life ends the game.
   * A miss keeps the asteroid while it is above the bottom edge.
   */
  function Collide(g: Game, a: Asteroid, rng: Random, k: nat): (r: Step)
    // only the kept asteroids, lives, particles and phase can change
    ensures r.game.(asteroids := g.asteroids, lives := g.lives, particles := g.particles, phase := g.phase) == g
    // the asteroid is kept exactly when it misses the ship and is still above the bottom edge
    ensures r.game.asteroids ==
      g.asteroids + (if !Collides(ShipRect(g.ship), AsteroidRect(a)) && a.y < g.height then [a] else [])
    // a strike, and only a strike, costs one life and sixteen random values
    ensures r.game.lives == g.lives - (if Collides(ShipRect(g.ship), AsteroidRect(a)) then 1 else 0)
    ensures r.cursor == k + (if Collides(ShipRect(g.ship), AsteroidRect(a)) then BurstDraws else 0)
    // the game is lost exactly when a strike takes the last life
    ensures r.game.phase ==
      if Collides(ShipRect(g.ship), AsteroidRect(a)) && g.lives <= 1 then GameOver(false) else g.phase
    // the old particles stay first; a strike adds one red burst of full-life particles where the asteroid is
    ensures |r.game.particles| == |g.particles| + (if Collides(ShipRect(g.ship), AsteroidRect(a)) then BurstSize else 0)
    ensures r.game.particles[..|g.particles|] == g.particles
    ensures forall i :: |g.particles| <= i < |r.game.particles| ==>
      var q := r.game.particles[i]; q.x == a.x && q.y == a.y && q.life == 1.0 && q.color == Red
  {
    if Collides(ShipRect(g.ship), AsteroidRect(a)) then
      var hit := g.(lives := g.lives - 1, particles := g.particles + Explosion(a.x, a.y, Red, rng, k));
      Step(if hit.lives <= 0 then EndGame(hit, false) else hit, k + BurstDraws)
    else
      Step(g.(asteroids := g.asteroids + (if a.y < g.height then [a] else [])), k)
  }

  /**
   * The asteroid filter of `update`, visiting `rocks` in order with the survivors so far in `g.asteroids`.
   * The pass goes on with the remaining asteroids even after a strike has ended the game.
   */
  function AsteroidPass(g: Game, rocks: seq<Asteroid>, rng: Random, k: nat): (r: Step)
    ensures r.cursor == k + BurstDraws * StrikeCount(g.ship, rocks)
    ensures r.game.lives == g.lives - StrikeCount(g.ship, rocks)
    ensures r.game.ship == g.ship && r.game.height == g.height
    decreases |rocks|
  {
    if rocks == [] then Step(g, k)
    else
      var s := Collide(g, Fall(rocks[0]), rng, k);
      AsteroidPass(s.game, rocks[1..], rng, s.cursor)
  }

  /** The asteroids left after the pass are exactly the survivors, appended in order. */
  lemma {:induction false} AsteroidPassSurvivors(g: Game, rocks: seq<Asteroid>, rng: Random, k: nat)
    ensures AsteroidPass(g, rocks, rng, k).game.asteroids == g.asteroids + Survivors(g.ship, g.height, rocks)
    decreases |rocks|
  {
    if rocks != [] {
      var a := Fall(rocks[0]);
      var s := Collide(g, a, rng, k);
      AsteroidPassSurvivors(s.game, rocks[1..], rng, s.cursor);
      if !Strikes(g.ship, rocks[0]) {
        var added := if a.y < g.height then [a] else [];
        assert s.game.asteroids + Survivors(g.ship, g.height, rocks[1..])
            == g.asteroids + (added + Survivors(g.ship, g.height, rocks[1..]));
      }
    }
  }

  /** Each strike appends one burst of eight full-life red particles; earlier particles are untouched. */
  lemma {:induction false} AsteroidPassBursts(g: Game, rocks: seq<Asteroid>, rng: Random, k: nat)
    ensures var ps := AsteroidPass(g, rocks, rng, k).game.particles;
      && |ps| == |g.particles| + BurstSize * StrikeCount(g.ship, rocks)
      && ps[..|g.particles|] == g.particles
      && forall i :: |g.particles| <= i < |ps| ==> ps[i].color == Red && ps[i].life == 1.0
    decreases |rocks|
  {
    if rocks != [] {
      var a := Fall(rocks[0]);
      var s := Collide(g, a, rng, k);
      AsteroidPassBursts(s.game, rocks[1..], rng, s.cursor);
      if Strikes(g.ship, rocks[0]) {
        var ps := AsteroidPass(s.game, rocks[1..], rng, s.cursor).game.particles;
        BurstPrefix(g.particles, Explosion(a.x, a.y, Red, rng, k), ps, Red);
      }
    }
  }

  /**
   * A particle list that extends `prior + burst` by particles of colour c and full life, where the burst
   * itself is of that colour and life, extends `prior` by such particles.
   */
  lemma BurstPrefix(prior: seq<Particle>, burst: seq<Particle>, ps: seq<Particle>, c: Color)
    requires forall i :: 0 <= i < |burst| ==> burst[i].color == c && burst[i].life == 1.0
    requires |prior + burst| <= |ps| && ps[..|prior + burst|] == prior + burst
    requires forall i :: |prior + burst| <= i < |ps| ==> ps[i].color == c && ps[i].life == 1.0
    ensures ps[..|prior|] == prior
    ensures forall i :: |prior| <= i < |ps| ==> ps[i].color == c && ps[i].life == 1.0
  {
    assert ps[..|prior|] == (prior + burst)[..|prior|];
    forall i | |prior| <= i < |prior + burst|
      ensures ps[i].color == c && ps[i].life == 1.0
    {
      assert ps[i] == (prior + burst)[i] == burst[i - |prior|];
    }
  }

  /**
   * The pass ends the game, with a loss, exactly when some asteroid strikes and the strikes use up the lives;
   * otherwise the phase is left as it was.
   */
  lemma {:induction false} AsteroidPassPhase(g: Game, rocks: seq<Asteroid>, rng: Random, k: nat)
    ensures var n := StrikeCount(g.ship, rocks);
      AsteroidPass(g, rocks, rng, k).game.phase == if n > 0 && g.lives - n <= 0 then GameOver(false) else g.phase
    decreases |rocks|
  {
    if rocks != [] {
      var s := Collide(g, Fall(rocks[0]), rng, k);
      AsteroidPassPhase(s.game, rocks[1..], rng, s.cursor);
    }
  }

  /** Besides asteroids, lives, particles and phase, the asteroid pass changes nothing. */
  lemma {:induction false} AsteroidPassFrame(g: Game, rocks: seq<Asteroid>, rng: Random, k: nat)
    ensures AsteroidPass(g, rocks, rng, k).game.(asteroids := g.asteroids, lives := g.lives,
                                                 particles := g.particles, phase := g.phase) == g
    decreases |rocks|
  {
    if rocks != [] {
      var s := Collide(g, Fall(rocks[0]), rng, k);
      AsteroidPassFrame(s.game, rocks[1..], rng, s.cursor);
    }
  }

  // ---------------------------------------------------------------------------
  // The canister pass
  // ---------------------------------------------------------------------------

  /** A canister one tick further down its path. */
  function Drift(f: FuelItem): (e: FuelItem)
    ensures e.y == f.y + f.speed
    ensures e.(y := f.y, bobbing := f.bobbing) == f
  {
    f.(y := f.y + f.speed, bobbing := f.bobbing + 0.05)
  }

  /** The canister, after its drift, overlaps the ship. */
  predicate Catches(ship: Ship, f: FuelItem)
  {
    Collides(ShipRect(ship), FuelRect(Drift(f)))
  }

  /** How many of the canisters the ship collects this tick. */
  function Pickups(ship: Ship, cans: seq<FuelItem>): (n: nat)
    ensures n <= |cans|
  {
    if cans == [] then 0 else (if Catches(ship, cans[0]) then 1 else 0) + Pickups(ship, cans[1..])
  }

  /** The canisters, drifted, that the ship misses and that are still above the bottom edge, in order. */
  function Remaining(ship: Ship, height: real, cans: seq<FuelItem>): (r: seq<FuelItem>)
    ensures |r| + Pickups(ship, cans) <= |cans|
  {
    if cans == [] then []
    else
      var f := Drift(cans[0]);
      var rest := Remaining(ship, height, cans[1..]);
      if !Catches(ship, cans[0]) && f.y < height then [f] + rest else rest
  }

  /** The remaining canisters are exactly the drifted ones that the ship misses and that are still above the bottom edge. */
  lemma {:induction false} RemainingExactly(ship: Ship, height: real, cans: seq<FuelItem>)
    ensures var r := Remaining(ship, height, cans);
      && (forall i :: 0 <= i < |cans| && !Catches(ship, cans[i]) && Drift(cans[i]).y < height ==> Drift(cans[i]) in r)
      && (forall f :: f in r ==> f.y < height && exists i :: 0 <= i < |cans| && f == Drift(cans[i]) && !Catches(ship, cans[i]))
    decreases |cans|
  {
    if cans != [] {
      RemainingExactly(ship, height, cans[1..]);
      assert forall i :: 1 <= i < |cans| ==> cans[i] == cans[1..][i - 1];
    }
  }

  /** The tank after n pickups of FuelBonus each, every one capped at MaxFuel. */
  function Refuelled(fuel: real, n: nat): (r: real)
    ensures 0.0 <= fuel <= MaxFuel ==> 0.0 <= r <= MaxFuel
    ensures r >= fuel || (n > 0 && r == MaxFuel)
  {
    if n == 0 then fuel else Min(MaxFuel, fuel + FuelBonus * n as real)
  }

  /**
   * The filter's callback for one canister that has already drifted. A pickup adds FuelBonus to the
   * tank (capped at MaxFuel) and FuelPoints to the score, bursts eight yellow particles and drops the
   * canister. A miss keeps the canister while it is above the bottom edge.
   */
  function Collect(g: Game, f: FuelItem, rng: Random, k: nat): (r: Step)
    // only the kept canisters, fuel, score and particles can change
    ensures r.game.(fuelItems := g.fuelItems, fuel := g.fuel, score := g.score, particles := g.particles) == g
    // the canister is kept exactly when the ship misses it and it is still above the bottom edge
    ensures r.game.fuelItems ==
      g.fuelItems + (if !Collides(ShipRect(g.ship), FuelRect(f)) && f.y < g.height then [f] else [])
    // a pickup, and only a pickup, scores ten points and costs sixteen random values
    ensures r.game.score == g.score + (if Collides(ShipRect(g.ship), FuelRect(f)) then FuelPoints else 0)
    ensures r.cursor == k + (if Collides(ShipRect(g.ship), FuelRect(f)) then BurstDraws else 0)
    // a pickup fills the tank by the bonus, but never past the maximum; a miss leaves the tank alone
    ensures !Collides(ShipRect(g.ship), FuelRect(f)) ==> r.game.fuel == g.fuel
    ensures Collides(ShipRect(g.ship), FuelRect(f)) ==>
      r.game.fuel <= MaxFuel && (r.game.fuel == g.fuel + FuelBonus || (r.game.fuel == MaxFuel && g.fuel + FuelBonus >= MaxFuel))
    // the old particles stay first; a pickup adds one yellow burst of full-life particles where the canister is
    ensures |r.game.particles| == |g.particles| + (if Collides(ShipRect(g.ship), FuelRect(f)) then BurstSize else 0)
    ensures r.game.particles[..|g.particles|] == g.particles
    ensures forall i :: |g.particles| <= i < |r.game.particles| ==>
      var q := r.game.particles[i]; q.x == f.x && q.y == f.y && q.life == 1.0 && q.color == Yellow
  {
    if Collides(ShipRect(g.ship), FuelRect(f)) then
      Step(g.(fuel := Min(MaxFuel, g.fuel + FuelBonus), score := g.score + FuelPoints,
              particles := g.particles + Explosion(f.x, f.y, Yellow, rng, k)), k + BurstDraws)
    else
      Step(g.(fuelItems := g.fuelItems + (if f.y < g.height then [f] else [])), k)
  }

  /** The canister filter of `update`, visiting `cans` in order with the kept canisters so far in `g.fuelItems`. */
  function FuelPass(g: Game, cans: seq<FuelItem>, rng: Random, k: nat): (r: Step)
    ensures r.cursor == k + BurstDraws * Pickups(g.ship, cans)
    ensures r.game.score == g.score + FuelPoints * Pickups(g.ship, cans)
    ensures r.game.fuel == Refuelled(g.fuel, Pickups(g.ship, cans))
    decreases |cans|
  {
    if cans == [] then Step(g, k)
    else
      var s := Collect(g, Drift(cans[0]), rng, k);
      RefuelledStep(g.fuel, Pickups(g.ship, cans[1..]));
      FuelPass(s.game, cans[1..], rng, s.cursor)
  }

  /** The canisters left after the pass are exactly the remaining ones, appended in order. */
  lemma {:induction false} FuelPassRemaining(g: Game, cans: seq<FuelItem>, rng: Random, k: nat)
    ensures FuelPass(g, cans, rng, k).game.fuelItems == g.fuelItems + Remaining(g.ship, g.height, cans)
    decreases |cans|
  {
    if cans != [] {
      var f := Drift(cans[0]);
      var s := Collect(g, f, rng, k);
      FuelPassRemaining(s.game, cans[1..], rng, s.cursor);
      if !Catches(g.ship, cans[0]) {
        var added := if f.y < g.height then [f] else [];
        assert s.game.fuelItems + Remaining(g.ship, g.height, cans[1..])
            == g.fuelItems + (added + Remaining(g.ship, g.height, cans[1..]));
      }
    }
  }

  /** Each pickup appends one burst of eight full-life yellow particles; earlier particles are untouched. */
  lemma {:induction false} FuelPassBursts(g: Game, cans: seq<FuelItem>, rng: Random, k: nat)
    ensures var ps := FuelPass(g, cans, rng, k).game.particles;
      && |ps| == |g.particles| + BurstSize * Pickups(g.ship, cans)
      && ps[..|g.particles|] == g.particles
      && forall i :: |g.particles| <= i < |ps| ==> ps[i].color == Yellow && ps[i].life == 1.0
    decreases |cans|
  {
    if cans != [] {
      var f := Drift(cans[0]);
      var s := Collect(g, f, rng, k);
      FuelPassBursts(s.game, cans[1..], rng, s.cursor);
      if Catches(g.ship, cans[0]) {
        var ps := FuelPass(s.game, cans[1..], rng, s.cursor).game.particles;
        BurstPrefix(g.particles, Explosion(f.x, f.y, Yellow, rng, k), ps, Yellow);
      }
    }
  }

  /** Besides canisters, score, fuel and particles, the canister pass changes nothing. */
  lemma {:induction false} FuelPassFrame(g: Game, cans: seq<FuelItem>, rng: Random, k: nat)
    ensures FuelPass(g, cans, rng, k).game.(fuelItems := g.fuelItems, score := g.score,
                                            fuel := g.fuel, particles := g.particles) == g
    decreases |cans|
  {
    if cans != [] {
      var s := Collect(g, Drift(cans[0]), rng, k);
      FuelPassFrame(s.game, cans[1..], rng, s.cursor);
    }
  }

  /** One capped pickup followed by n more is n + 1 capped pickups. */
  lemma RefuelledStep(fuel: real, n: nat)
    ensures Refuelled(Min(MaxFuel, fuel + FuelBonus), n) == Refuelled(fuel, n + 1)
  {
  }

  // ---------------------------------------------------------------------------
  // End of tick
  // ---------------------------------------------------------------------------

  /** A particle one tick older. */
  function Fade(p: Particle): (q: Particle)
    ensures q.life == p.life - LifeStep
    ensures q.(life := p.life) == p
  {
    p.(life := p.life - LifeStep)
  }

  /** The particle filter: every particle ages by LifeStep and only those with life left are kept, in order. */
  function Decay(ps: seq<Particle>): (r: seq<Particle>)
    ensures |r| <= |ps|
  {
    if ps == [] then []
    else
      var q := Fade(ps[0]);
      var rest := Decay(ps[1..]);
      if q.life > 0.0 then [q] + rest else rest
  }

  /**
   * Exactly the aged particles with life left are kept: none of the kept ones is spent, and none
   * exceeds full life if none did before.
   */
  lemma {:induction false} DecayKeeps(ps: seq<Particle>)
    ensures var r := Decay(ps);
      && (forall i :: 0 <= i < |r| ==> r[i].life > 0.0)
      && (forall i :: 0 <= i < |ps| && Fade(ps[i]).life > 0.0 ==> Fade(ps[i]) in r)
      && (forall q :: q in r ==> exists i :: 0 <= i < |ps| && q == Fade(ps[i]))
      && ((forall i :: 0 <= i < |ps| ==> ps[i].life <= 1.0) ==> forall i :: 0 <= i < |r| ==> r[i].life <= 1.0)
    decreases |ps|
  {
    if ps != [] {
      DecayKeeps(ps[1..]);
      assert forall i :: 1 <= i < |ps| ==> ps[i] == ps[1..][i - 1];
    }
  }

  /** The filter treats each particle on its own: decaying a concatenation decays the parts, in order. */
  lemma {:induction false} DecayConcat(a: seq<Particle>, b: seq<Particle>)
    ensures Decay(a + b) == Decay(a) + Decay(b)
    decreases |a|
  {
    if a == [] {
      assert a + b == b;
    } else {
      assert (a + b)[0] == a[0];
      assert (a + b)[1..] == a[1..] + b;
      DecayConcat(a[1..], b);
    }
  }

  /** One particle is kept, aged, exactly when it has life left after aging; with DecayConcat this fixes the whole list. */
  lemma DecayOne(p: Particle)
    ensures Decay([p]) == if Fade(p).life > 0.0 then [Fade(p)] else []
  {
    assert [p][1..] == [];
  }

  /**
   * The checks after both passes: an empty tank loses (checked first), otherwise reaching the goal wins;
   * only when neither fires do the particles decay. Nothing else changes here.
   */
  function EndChecks(g: Game): (r: Game)
    // only the phase and the particles can change
    ensures r.(phase := g.phase, particles := g.particles) == g
    // an empty tank always loses, whatever the score
    ensures g.fuel <= 0.0 ==> r.phase == GameOver(false)
    // the game ends exactly when the tank is empty, the goal is reached, or it had already ended
    ensures r.phase.GameOver? <==> g.fuel <= 0.0 || g.score >= MaxScore || g.phase.GameOver?
    // it is won exactly when there is fuel left and the goal is reached (or it had already been won)
    ensures r.phase == GameOver(true) <==> g.fuel > 0.0 && (g.score >= MaxScore || g.phase == GameOver(true))
    // when neither check fires the phase is kept and the particles age; otherwise they are left as they are
    ensures g.fuel > 0.0 && g.score < MaxScore ==> r.phase == g.phase && r.particles == Decay(g.particles)
    ensures g.fuel <= 0.0 || g.score >= MaxScore ==> r.particles == g.particles
  {
    if g.fuel <= 0.0 then EndGame(g, false)
    else if g.score >= MaxScore then EndGame(g, true)
    else g.(particles := Decay(g.particles))
  }

  // ---------------------------------------------------------------------------
  // The tick
  // ---------------------------------------------------------------------------

  /** The state after movement, drain and both spawners, with the random values they used. */
  function Prepare(g: Game, keys: Keys, rng: Random): (r: Step)
    ensures r.game.score == g.score && r.game.lives == g.lives && r.game.phase == g.phase
    ensures r.game.ship == MoveShip(g, keys).ship
    ensures r.game.fuel == Drain(MoveShip(g, keys)).fuel
    ensures r.game.particles == g.particles && r.game.height == g.height && r.game.width == g.width
  {
    var drained := Drain(MoveShip(g, keys));
    var spawned := Spawner(drained, rng, 0);
    SpawnFuel(spawned.game, rng, spawned.cursor)
  }

  /** Movement, drain, spawning and both entity passes, before the end-of-game checks. */
  function Simulate(g: Game, keys: Keys, rng: Random): (r: Game)
    ensures r.width == g.width && r.height == g.height
    ensures r.score >= g.score
    ensures r.phase == g.phase || r.phase == GameOver(false)
  {
    var prepared := Prepare(g, keys, rng);
    var p := prepared.game;
    var p0 := p.(asteroids := []);
    AsteroidPassFrame(p0, p.asteroids, rng, prepared.cursor);
    AsteroidPassPhase(p0, p.asteroids, rng, prepared.cursor);
    var rocks := AsteroidPass(p0, p.asteroids, rng, prepared.cursor);
    var q := rocks.game;
    var q0 := q.(fuelItems := []);
    FuelPassFrame(q0, q.fuelItems, rng, rocks.cursor);
    FuelPass(q0, q.fuelItems, rng, rocks.cursor).game
  }

  /**
   * `update`: nothing at all unless the game is playing; otherwise one simulation step followed by
   * the end-of-game checks.
   */
  function Tick(g: Game, keys: Keys, rng: Random): (r: Game)
    ensures g.phase != Playing ==> r == g
  {
    if g.phase != Playing then g else EndChecks(Simulate(g, keys, rng))
  }
}

=== FILE: escape.dfy ===
/**
 * `escapeHtml` from the portfolio page: five chained `replaceAll` calls that turn the HTML-special
 * characters into entities, ampersand first.
 */
module Escape {

  /** `s.replaceAll(c, t)` for a one-character pattern: every occurrence of c becomes t. */
  function ReplaceChar(s: string, c: char, t: string): string
  {
    if s == [] then []
    else (if s[0] == c then t else [s[0]]) + ReplaceChar(s[1..], c, t)
  }

  /** Replacing c by a text without it removes c entirely; a string without c is left as it is. */
  lemma {:induction false} ReplaceCharEffect(s: string, c: char, t: string)
    ensures c !in t ==> c !in ReplaceChar(s, c, t)
    ensures c !in s ==> ReplaceChar(s, c, t) == s
    decreases |s|
  {
    if s != [] {
      var h := if s[0] == c then t else [s[0]];
      ReplaceCharEffect(s[1..], c, t);
      assert ReplaceChar(s, c, t) == h + ReplaceChar(s[1..], c, t);
      if c !in s {
        assert s == [s[0]] + s[1..];
      }
    }
  }

  /** Replacing distributes over concatenation. */
  lemma {:induction false} ReplaceCharConcat(a: string, b: string, c: char, t: string)
    ensures ReplaceChar(a + b, c, t) == ReplaceChar(a, c, t) + ReplaceChar(b, c, t)
    decreases |a|
  {
    if a == [] {
      assert a + b == b;
    } else {
      assert (a + b)[0] == a[0];
      assert (a + b)[1..] == a[1..] + b;
      ReplaceCharConcat(a[1..], b, c, t);
      var h := if a[0] == c then t else [a[0]];
      assert ReplaceChar(a + b, c, t) == h + (ReplaceChar(a[1..], c, t) + ReplaceChar(b, c, t));
    }
  }

  /** The five `replaceAll` calls of `escapeHtml`, in the source's order: ampersand first. */
  const Replacements: seq<(char, string)> :=
    [('&', "&amp;"), ('<', "&lt;"), ('>', "&gt;"), ('"', "&quot;"), ('\'', "&#039;")]

  /** Applies the replacements one after another, each to the whole output of the one before. */
  function Chain(s: string, steps: seq<(char, string)>): string
    decreases |steps|
  {
    if steps == [] then s else Chain(ReplaceChar(s, steps[0].0, steps[0].1), steps[1..])
  }

  /** Replacing a character by a non-empty text never shortens a string. */
  lemma {:induction false} ReplaceCharLength(s: string, c: char, t: string)
    requires |t| >= 1
    ensures |ReplaceChar(s, c, t)| >= |s|
    decreases |s|
  {
    if s != [] {
      ReplaceCharLength(s[1..], c, t);
    }
  }

  /** A chain of replacements by non-empty texts never shortens a string. */
  lemma {:induction false} ChainLength(s: string, steps: seq<(char, string)>)
    requires forall j :: 0 <= j < |steps| ==> |steps[j].1| >= 1
    ensures |Chain(s, steps)| >= |s|
    decreases |steps|
  {
    if steps != [] {
      ReplaceCharLength(s, steps[0].0, steps[0].1);
      ChainLength(ReplaceChar(s, steps[0].0, steps[0].1), steps[1..]);
    }
  }

  /** `escapeHtml` as written: every entity is at least as long as its character, so nothing gets shorter. */
  function EscapeHtml(s: string): (r: string)
    ensures |r| >= |s|
  {
    ChainLength(s, Replacements);
    Chain(s, Replacements)
  }

  /** A chain of replacements none of whose characters occur in s leaves s alone. */
  lemma {:induction false} ChainUntouched(s: string, steps: seq<(char, string)>)
    requires forall j :: 0 <= j < |steps| ==> steps[j].0 !in s
    ensures Chain(s, steps) == s
    decreases |steps|
  {
    if steps != [] {
      ReplaceCharEffect(s, steps[0].0, steps[0].1);
      ChainUntouched(s, steps[1..]);
    }
  }

  /** A chain of replacements distributes over concatenation. */
  lemma {:induction false} ChainConcat(a: string, b: string, steps: seq<(char, string)>)
    ensures Chain(a + b, steps) == Chain(a, steps) + Chain(b, steps)
    decreases |steps|
  {
    if steps != [] {
      var c, t := steps[0].0, steps[0].1;
      ReplaceCharConcat(a, b, c, t);
      ChainConcat(ReplaceChar(a, c, t), ReplaceChar(b, c, t), steps[1..]);
    }
  }

  /** The entity one character stands for in the output. */
  function EscapeChar(c: char): (t: string)
    ensures |t| >= 1
    ensures t[0] == '&' <==> c in "&<>\"'"
    ensures c !in "&<>\"'" ==> t == [c]
    ensures forall j :: 0 < j < |t| ==> t[j] != '&'
    ensures '<' !in t && '>' !in t && '"' !in t && '\'' !in t
  {
    match c
    case '&' => "&amp;"
    case '<' => "&lt;"
    case '>' => "&gt;"
    case '"' => "&quot;"
    case '\'' => "&#039;"
    case _ => [c]
  }

  /** The per-character reference encoder: each character replaced by its entity, independently. */
  function Escaped(s: string): string
  {
    if s == [] then [] else EscapeChar(s[0]) + Escaped(s[1..])
  }

  /** The reference encoder never shortens its input and leaves none of the four markup characters. */
  lemma {:induction false} EscapedClean(s: string)
    ensures |Escaped(s)| >= |s|
    ensures '<' !in Escaped(s) && '>' !in Escaped(s) && '"' !in Escaped(s) && '\'' !in Escaped(s)
    decreases |s|
  {
    if s != [] {
      var t, rest := EscapeChar(s[0]), Escaped(s[1..]);
      EscapedClean(s[1..]);
      assert Escaped(s) == t + rest;
    }
  }

  /** Replacing in a one-character string. */
  lemma ReplaceOne(c: char, d: char, t: string)
    ensures ReplaceChar([c], d, t) == if c == d then t else [c]
  {
    assert [c][1..] == [];
  }

  /** The chain applied to a single character gives its entity: no replacement rewrites an earlier one. */
  lemma EscapeHtmlChar(c: char)
    ensures EscapeHtml([c]) == EscapeChar(c)
  {
    if c == '&' { ReplacedOnce(c, 0); }
    else if c == '<' { ReplacedOnce(c, 1); }
    else if c == '>' { ReplacedOnce(c, 2); }
    else if c == '"' { ReplacedOnce(c, 3); }
    else if c == '\'' { ReplacedOnce(c, 4); }
    else { ChainUntouched([c], Replacements); }
  }

  /** The n-th replacement's character is rewritten by that replacement and by no other. */
  lemma ReplacedOnce(c: char, n: nat)
    requires n < |Replacements| && Replacements[n].0 == c
    ensures EscapeHtml([c]) == Replacements[n].1
  {
    var R := Replacements;
    EarlierMiss(c, n);
    ChainSkip([c], R, n);
    ReplaceOne(c, c, R[n].1);
    assert Chain([c], R[n..]) == Chain(R[n].1, R[n + 1..]);
    LaterMiss(n, R[n + 1..]);
    ChainUntouched(R[n].1, R[n + 1..]);
  }

  /** The replacements before the n-th do not touch its character. */
  lemma EarlierMiss(c: char, n: nat)
    requires n < |Replacements| && Replacements[n].0 == c
    ensures forall j :: 0 <= j < n ==> Replacements[j].0 !in [c]
  {
  }

  /** The replacements after the n-th find nothing to rewrite in its entity. */
  lemma LaterMiss(n: nat, later: seq<(char, string)>)
    requires n < |Replacements| && later == Replacements[n + 1..]
    ensures forall j :: 0 <= j < |later| ==> later[j].0 !in Replacements[n].1
  {
    var R := Replacements;
    assert R[n].1[0] == '&';
    if n == 0 {
      assert R[n].1 == "&amp;";
    }
  }

  /** The first n replacements leave alone a string that holds none of their characters. */
  lemma {:induction false} ChainSkip(s: string, steps: seq<(char, string)>, n: nat)
    requires n <= |steps|
    requires forall j :: 0 <= j < n ==> steps[j].0 !in s
    ensures Chain(s, steps) == Chain(s, steps[n..])
    decreases n
  {
    if n > 0 {
      ReplaceCharEffect(s, steps[0].0, steps[0].1);
      assert steps[1..][n - 1..] == steps[n..];
      ChainSkip(s, steps[1..], n - 1);
    }
  }

  /** The chained replacements distribute over concatenation. */
  lemma EscapeHtmlConcat(a: string, b: string)
    ensures EscapeHtml(a + b) == EscapeHtml(a) + EscapeHtml(b)
  {
    ChainConcat(a, b, Replacements);
  }

  /** The chained replacements are exactly the per-character encoder: nothing is escaped twice. */
  lemma {:induction false} EscapeHtmlIsPerChar(s: string)
    ensures EscapeHtml(s) == Escaped(s)
    decreases |s|
  {
    if s == [] {
    } else {
      assert s == [s[0]] + s[1..];
      EscapeHtmlConcat([s[0]], s[1..]);
      EscapeHtmlChar(s[0]);
      EscapeHtmlIsPerChar(s[1..]);
    }
  }

  /** The per-character encoder distributes over concatenation. */
  lemma {:induction false} EscapedConcat(a: string, b: string)
    ensures Escaped(a + b) == Escaped(a) + Escaped(b)
    decreases |a|
  {
    if a == [] {
      assert a + b == b;
    } else {
      assert (a + b)[0] == a[0];
      assert (a + b)[1..] == a[1..] + b;
      EscapedConcat(a[1..], b);
      assert Escaped(a + b) == EscapeChar(a[0]) + (Escaped(a[1..]) + Escaped(b));
    }
  }

  /** `escapeHtml` leaves none of the four markup characters in its output. */
  lemma NoMarkupLeft(s: string)
    ensures '<' !in EscapeHtml(s) && '>' !in EscapeHtml(s)
    ensures '"' !in EscapeHtml(s) && '\'' !in EscapeHtml(s)
  {
    EscapeHtmlIsPerChar(s);
    EscapedClean(s);
  }

  /** A string with none of the five special characters comes back unchanged. */
  lemma PlainUnchanged(s: string)
    requires forall i :: 0 <= i < |s| ==> s[i] !in "&<>\"'"
    ensures EscapeHtml(s) == s
  {
    EscapeHtmlIsPerChar(s);
    PlainEscaped(s);
  }

  lemma {:induction false} PlainEscaped(s: string)
    requires forall i :: 0 <= i < |s| ==> s[i] !in "&<>\"'"
    ensures Escaped(s) == s
    decreases |s|
  {
    if s != [] {
      PlainEscaped(s[1..]);
      assert s == [s[0]] + s[1..];
    }
  }

  /** The output is empty exactly when the input is. */
  lemma EscapeHtmlEmpty(s: string)
    ensures EscapeHtml(s) == [] <==> s == []
  {
    EscapeHtmlIsPerChar(s);
  }

  // ---------------------------------------------------------------------------
  // Decoding
  // ---------------------------------------------------------------------------

  predicate StartsWith(s: string, p: string)
  {
    |p| <= |s| && s[..|p|] == p
  }

  /** One of the five entities begins at position i of s. */
  predicate EntityAt(s: string, i: int)
    requires 0 <= i <= |s|
  {
    var t := s[i..];
    StartsWith(t, "&amp;") || StartsWith(t, "&lt;") || StartsWith(t, "&gt;")
    || StartsWith(t, "&quot;") || StartsWith(t, "&#039;")
  }

  /** Decodes the five entities, left to right; every other character is copied. */
  function Unescape(s: string): string
    decreases |s|
  {
    if s == [] then []
    else if s[0] != '&' then [s[0]] + Unescape(s[1..])
    else if StartsWith(s, "&amp;") then "&" + Unescape(s[5..])
    else if StartsWith(s, "&lt;") then "<" + Unescape(s[4..])
    else if StartsWith(s, "&gt;") then ">" + Unescape(s[4..])
    else if StartsWith(s, "&quot;") then "\"" + Unescape(s[6..])
    else if StartsWith(s, "&#039;") then "'" + Unescape(s[6..])
    else [s[0]] + Unescape(s[1..])
  }

  /** Decoding one encoded character, followed by anything, gives back that character first. */
  lemma UnescapeCons(c: char, rest: string)
    ensures Unescape(EscapeChar(c) + rest) == [c] + Unescape(rest)
  {
    var t := EscapeChar(c) + rest;
    var e := EscapeChar(c);
    assert t[..|e|] == e;
    assert t[|e|..] == rest;
    if c == '&' {
      assert StartsWith(t, "&amp;");
    } else if c == '<' {
      assert t[1] == 'l';
      assert !StartsWith(t, "&amp;");
      assert StartsWith(t, "&lt;");
    } else if c == '>' {
      assert t[1] == 'g';
      assert !StartsWith(t, "&amp;") && !StartsWith(t, "&lt;");
      assert StartsWith(t, "&gt;");
    } else if c == '"' {
      assert t[1] == 'q';
      assert !StartsWith(t, "&amp;") && !StartsWith(t, "&lt;") && !StartsWith(t, "&gt;");
      assert StartsWith(t, "&quot;");
    } else if c == '\'' {
      assert t[1] == '#';
      assert !StartsWith(t, "&amp;") && !StartsWith(t, "&lt;") && !StartsWith(t, "&gt;");
      assert !StartsWith(t, "&quot;");
      assert StartsWith(t, "&#039;");
    } else {
      assert t[0] == c;
    }
  }

  /** Decoding undoes the encoder. */
  lemma {:induction false} UnescapeEscaped(s: string)
    ensures Unescape(Escaped(s)) == s
    decreases |s|
  {
    if s != [] {
      UnescapeCons(s[0], Escaped(s[1..]));
      UnescapeEscaped(s[1..]);
      assert s == [s[0]] + s[1..];
    }
  }

  /** Decoding undoes `escapeHtml`, so different strings never escape to the same text. */
  lemma EscapeHtmlRoundTrip(s: string)
    ensures Unescape(EscapeHtml(s)) == s
  {
    EscapeHtmlIsPerChar(s);
    UnescapeEscaped(s);
  }

  lemma EscapeHtmlInjective(a: string, b: string)
    ensures EscapeHtml(a) == EscapeHtml(b) ==> a == b
  {
    EscapeHtmlRoundTrip(a);
    EscapeHtmlRoundTrip(b);
  }

  /** Every ampersand of r begins one of the five entities. */
  predicate AmpersandsAreEntities(r: string)
  {
    forall i :: 0 <= i < |r| && r[i] == '&' ==> EntityAt(r, i)
  }

  /** In the encoder's output every ampersand begins one of the five entities. */
  lemma {:induction false} AmpersandsStartEntities(s: string)
    ensures AmpersandsAreEntities(Escaped(s))
    decreases |s|
  {
    if s != [] {
      var e := EscapeChar(s[0]);
      var rest := Escaped(s[1..]);
      var r := e + rest;
      AmpersandsStartEntities(s[1..]);
      forall i | 0 <= i < |r| && r[i] == '&'
        ensures EntityAt(r, i)
      {
        if i < |e| {
          assert e[i] == '&';
          assert i == 0;
          assert s[0] in "&<>\"'";
          EntityOfChar(s[0], rest);
        } else {
          assert r[i..] == rest[i - |e|..];
          assert rest[i - |e|] == '&';
          assert AmpersandsAreEntities(rest);
          assert EntityAt(rest, i - |e|);
        }
      }
    }
  }

  /** An encoded special character, followed by anything, begins with its entity. */
  lemma EntityOfChar(c: char, rest: string)
    requires c in "&<>\"'"
    ensures EntityAt(EscapeChar(c) + rest, 0)
  {
    var e := EscapeChar(c);
    var t := e + rest;
    assert t[0..] == t;
    assert t[..|e|] == e;
  }

  /** The same holds of `escapeHtml` itself. */
  lemma EscapeHtmlAmpersands(s: string)
    ensures AmpersandsAreEntities(EscapeHtml(s))
  {
    EscapeHtmlIsPerChar(s);
    AmpersandsStartEntities(s);
  }
}

=== FILE: geometry.dfy ===
/** Axis-aligned rectangles and the game's collision test. */
module Geometry {

  /** A rectangle given by its top-left corner and its extent, in canvas pixels. */
  datatype Rect = Rect(x: real, y: real, width: real, height: real)

  /** `checkCollision`: strict overlap on both axes; rectangles that only share an edge do not collide. */
  predicate Collides(a: Rect, b: Rect)
  {
    && a.x < b.x + b.width
    && a.x + a.width > b.x
    && a.y < b.y + b.height
    && a.y + a.height > b.y
  }

  /** The point (px, py) lies strictly inside r. */
  predicate Inside(r: Rect, px: real, py: real)
  {
    r.x < px < r.x + r.width && r.y < py < r.y + r.height
  }

  /** The collision test does not depend on the order of its arguments. */
  lemma CollidesSymmetric(a: Rect, b: Rect)
    ensures Collides(a, b) <==> Collides(b, a)
  {
  }

  /** Rectangles that touch along a vertical or a horizontal edge do not collide. */
  lemma TouchingDoNotCollide(a: Rect, b: Rect)
    requires a.x + a.width == b.x || b.x + b.width == a.x || a.y + a.height == b.y || b.y + b.height == a.y
    ensures !Collides(a, b)
  {
  }

  /** A point strictly inside both rectangles witnesses a collision. */
  lemma CommonPointCollides(a: Rect, b: Rect, px: real, py: real)
    requires Inside(a, px, py) && Inside(b, px, py)
    ensures Collides(a, b)
  {
  }

  /**
   * For rectangles of positive size the collision test is exactly "the open rectangles share a point":
   * the midpoint of the overlap on each axis is such a point.
   */
  lemma CollidesIffCommonPoint(a: Rect, b: Rect)
    requires a.width > 0.0 && a.height > 0.0 && b.width > 0.0 && b.height > 0.0
    ensures Collides(a, b) <==> exists px, py :: Inside(a, px, py) && Inside(b, px, py)
  {
    if Collides(a, b) {
      var lx := if a.x < b.x then b.x else a.x;
      var hx := if a.x + a.width < b.x + b.width then a.x + a.width else b.x + b.width;
      var ly := if a.y < b.y then b.y else a.y;
      var hy := if a.y + a.height < b.y + b.height then a.y + a.height else b.y + b.height;
      var px, py := (lx + hx) / 2.0, (ly + hy) / 2.0;
      assert Inside(a, px, py) && Inside(b, px, py);
    }
  }
}

=== FILE: news.dfy ===
/**
 * The tag and link lists of a news card (`renderNewsItem`): at most eight tags and four links are
 * rendered, every text is escaped, and a link without an address produces no anchor.
 */
module News {
  import opened Escape

  const MaxTags: nat := 8
  const MaxLinks: nat := 4
  /** The anchor text used when a link has no caption. */
  const DefaultLabel: string := "Link"

  /**
   * A link entry of the feed; a missing or empty field is the empty string. `caption` holds the entry's
   * `label` field (`label` is a reserved word in Dafny).
   */
  datatype Link = Link(href: string, caption: string)

  /** A rendered anchor: escaped address and escaped (or default) caption. */
  datatype Anchor = Anchor(href: string, caption: string)

  function MinNat(a: nat, b: nat): nat { if a <= b then a else b }

  /** The rendered tag texts: the first eight tags, each escaped. */
  function NewsTags(tags: seq<string>): (r: seq<string>)
    ensures |r| == MinNat(|tags|, MaxTags)
    ensures forall i :: 0 <= i < |r| ==> r[i] == EscapeHtml(tags[i])
  {
    var shown := if |tags| <= MaxTags then tags else tags[..MaxTags];
    seq(|shown|, i requires 0 <= i < |shown| => EscapeHtml(shown[i]))
  }

  /** The anchor one link renders to, if any: none when the escaped address is empty. */
  function LinkAnchor(l: Link): (r: seq<Anchor>)
    ensures |r| == if l.href != "" then 1 else 0
    // the address is rendered escaped; a given caption is rendered escaped, a missing one reads "Link"
    ensures |r| == 1 ==> r[0].href == EscapeHtml(l.href)
    ensures |r| == 1 ==> r[0].caption == if l.caption == "" then DefaultLabel else EscapeHtml(l.caption)
  {
    EscapeHtmlEmpty(l.href);
    var safeHref := EscapeHtml(l.href);
    var caption := if l.caption != "" then EscapeHtml(l.caption) else DefaultLabel;
    if safeHref == "" then [] else [Anchor(safeHref, caption)]
  }

  /**
   * A rendered anchor carries no markup: its address is non-empty and free of `<` and `"`, its caption is
   * free of `<`, `>` and `"`, and both decode back to the feed's text (a missing caption reads "Link").
   */
  lemma LinkAnchorSafe(l: Link)
    ensures var r := LinkAnchor(l);
      && (|r| == 1 ==> r[0].href != "" && '<' !in r[0].href && '"' !in r[0].href)
      && (|r| == 1 ==> '<' !in r[0].caption && '>' !in r[0].caption && '"' !in r[0].caption)
      && (|r| == 1 ==> Unescape(r[0].href) == l.href)
      && (|r| == 1 ==> if l.caption == "" then r[0].caption == DefaultLabel else Unescape(r[0].caption) == l.caption)
  {
    EscapeHtmlEmpty(l.href);
    NoMarkupLeft(l.href);
    NoMarkupLeft(l.caption);
    EscapeHtmlRoundTrip(l.href);
    EscapeHtmlRoundTrip(l.caption);
  }

  /** The links among `links` that have an address. */
  function WithAddress(links: seq<Link>): (n: nat)
    ensures n <= |links|
  {
    if links == [] then 0 else (if links[0].href != "" then 1 else 0) + WithAddress(links[1..])
  }

  /** The anchors of a list of links, in order. */
  function Anchors(links: seq<Link>): (r: seq<Anchor>)
    ensures |r| == WithAddress(links)
  {
    if links == [] then [] else LinkAnchor(links[0]) + Anchors(links[1..])
  }

  /** Every anchor has a non-empty, markup-free address that decodes to the address of one of the links. */
  lemma {:induction false} AnchorsDecode(links: seq<Link>)
    ensures forall a :: a in Anchors(links) ==> a.href != "" && '<' !in a.href && '"' !in a.href
    ensures forall a :: a in Anchors(links) ==>
      exists i :: 0 <= i < |links| && links[i].href != "" && Unescape(a.href) == links[i].href
    decreases |links|
  {
    if links != [] {
      LinkAnchorSafe(links[0]);
      AnchorsDecode(links[1..]);
      assert forall i :: 1 <= i < |links| ==> links[i] == links[1..][i - 1];
    }
  }

  /** The anchors of two lists of links, one after the other, are those of the first list and then those of the second. */
  lemma {:induction false} AnchorsConcat(a: seq<Link>, b: seq<Link>)
    ensures Anchors(a + b) == Anchors(a) + Anchors(b)
    decreases |a|
  {
    if a == [] {
      assert a + b == b;
    } else {
      assert (a + b)[1..] == a[1..] + b;
      AnchorsConcat(a[1..], b);
    }
  }

  lemma AnchorsCons(l: Link, ls: seq<Link>)
    ensures Anchors([l] + ls) == LinkAnchor(l) + Anchors(ls)
  {
    assert ([l] + ls)[0] == l;
    assert ([l] + ls)[1..] == ls;
  }

  /** A single link renders to its own anchor, if any; with AnchorsConcat this fixes every anchor list. */
  lemma AnchorsOne(l: Link)
    ensures Anchors([l]) == LinkAnchor(l)
  {
    assert [l][1..] == [];
  }

  /**
   * A link with an address renders its anchor, with its own escaped address and caption, right after the
   * anchors of the links before it.
   */
  lemma AnchorAt(links: seq<Link>, i: nat)
    requires i < |links| && links[i].href != ""
    ensures WithAddress(links[..i]) < |Anchors(links)|
    ensures Anchors(links)[WithAddress(links[..i])] == LinkAnchor(links[i])[0]
  {
    var before, rest := links[..i], links[i + 1..];
    assert links == before + ([links[i]] + rest);
    AnchorsConcat(before, [links[i]] + rest);
    AnchorsConcat([links[i]], rest);
    AnchorsOne(links[i]);
  }

  /** The rendered anchors: from the first four links, one per link with an address. */
  function NewsLinks(links: seq<Link>): (r: seq<Anchor>)
    ensures |r| <= MaxLinks
    ensures |r| == WithAddress(if |links| <= MaxLinks then links else links[..MaxLinks])
    ensures forall a :: a in r ==> a.href != ""
    ensures forall a :: a in r ==> exists i :: 0 <= i < MinNat(|links|, MaxLinks) && Unescape(a.href) == links[i].href
  {
    AnchorsDecode(if |links| <= MaxLinks then links else links[..MaxLinks]);
    Anchors(if |links| <= MaxLinks then links else links[..MaxLinks])
  }

  /** Links after the fourth are never rendered. */
  lemma NewsLinksIgnoreRest(links: seq<Link>, more: seq<Link>)
    requires |links| >= MaxLinks
    ensures NewsLinks(links + more) == NewsLinks(links)
  {
    if more != [] {
      assert (links + more)[..MaxLinks] == links[..MaxLinks];
      if |links| == MaxLinks {
        assert links[..MaxLinks] == links;
      }
    } else {
      assert links + more == links;
    }
  }

  /** Up to four links render exactly their anchors, in order. */
  lemma NewsLinksFew(links: seq<Link>)
    requires |links| <= MaxLinks
    ensures NewsLinks(links) == Anchors(links)
  {
  }
}

=== FILE: typing.dfy ===
/**
 * The hero typing effect of the portfolio page: each call of `type()` shows a prefix of the current
 * role, then types one code unit, deletes one, turns around, or moves to the next role, and schedules
 * the next call. The timer is replaced by the returned delay. Roles are JavaScript strings, so lengths and
 * cuts count UTF-16 code units, not characters.
 */
module Typing {

  /** A UTF-16 code unit, the unit in which JavaScript measures and cuts strings. */
  newtype CodeUnit = x: int | 0 <= x < 0x1_0000

  /** A JavaScript string: a sequence of UTF-16 code units. */
  type Text = seq<CodeUnit>

  const TypeDelay: int := 100
  const DeleteDelay: int := 50
  const PauseDelay: int := 1500
  const NextRoleDelay: int := 150

  /** The closure state of the effect; `speed` is the last delay a branch chose and outlives the call. */
  datatype Typer = Typer(roleIndex: nat, charIndex: int, deleting: bool, speed: int)

  /**
   * One call of `type()`: the text written to the page, the new state and the delay before the next call.
   * With no roles at all the call fails on the missing role, and the effect stops.
   */
  datatype Outcome = Crashed | Shown(text: Text, next: Typer, delay: int)

  /** `s.substring(0, end)`: the end is clamped into [0, |s|]. */
  function Prefix(s: Text, end: int): (r: Text)
    ensures |r| == if end < 0 then 0 else if end > |s| then |s| else end
    ensures r <= s
  {
    if end <= 0 then [] else if end >= |s| then s else s[..end]
  }

  function Role(roles: seq<Text>, t: Typer): Text
    requires |roles| > 0
  {
    roles[t.roleIndex % |roles|]
  }

  /** The character index lies within the current role. */
  predicate Bounded(roles: seq<Text>, t: Typer)
  {
    |roles| > 0 && 0 <= t.charIndex <= |Role(roles, t)|
  }

  /** The four branches of the step, tried in order; when none applies the state is kept. */
  function Advance(roles: seq<Text>, t: Typer): (r: Typer)
    requires |roles| > 0
    // the state is kept exactly when the index has passed the role's end while typing or its start while deleting
    ensures r == t <==> (!t.deleting && t.charIndex > |Role(roles, t)|) || (t.deleting && t.charIndex < 0)
    // the index moves by at most one, and the role by at most one
    ensures t.charIndex - 1 <= r.charIndex <= t.charIndex + 1
    ensures r.roleIndex == t.roleIndex || r.roleIndex == t.roleIndex + 1
  {
    var len := |Role(roles, t)|;
    if !t.deleting && t.charIndex < len then t.(charIndex := t.charIndex + 1, speed := TypeDelay)
    else if t.deleting && t.charIndex > 0 then t.(charIndex := t.charIndex - 1, speed := DeleteDelay)
    else if !t.deleting && t.charIndex == len then t.(deleting := true, speed := PauseDelay)
    else if t.deleting && t.charIndex == 0 then
      t.(deleting := false, roleIndex := t.roleIndex + 1, speed := NextRoleDelay)
    else t
  }

  /** One call of `type()`. */
  function TypeStep(roles: seq<Text>, t: Typer): (r: Outcome)
    ensures r.Crashed? <==> roles == []
    // the step keeps the index within the role, and always makes progress
    ensures Bounded(roles, t) ==> r.Shown? && Bounded(roles, r.next) && r.next != t
    // what is shown is the current role up to the new index
    ensures Bounded(roles, t) ==> |r.text| == r.next.charIndex
    ensures r.Shown? ==> r.text <= Role(roles, t)
    // deleting starts only once the whole role is typed
    ensures r.Shown? && r.next.deleting && !t.deleting ==> t.charIndex == |Role(roles, t)|
    // the role advances by one exactly when deleting has reached the start, and typing resumes at 0
    ensures r.Shown? ==> (r.next.roleIndex == t.roleIndex + 1 <==> t.deleting && t.charIndex == 0)
    ensures r.Shown? ==> r.next.roleIndex == t.roleIndex || r.next.roleIndex == t.roleIndex + 1
    ensures r.Shown? && t.deleting && t.charIndex == 0 ==> !r.next.deleting && r.next.charIndex == 0
    // the next delay follows the branch taken
    ensures r.Shown? && !t.deleting && t.charIndex < |Role(roles, t)| ==> r.delay == TypeDelay
    ensures r.Shown? && t.deleting && t.charIndex > 0 ==>
      r.delay == (if t.charIndex == 1 then PauseDelay else DeleteDelay)
    ensures r.Shown? && !t.deleting && t.charIndex == |Role(roles, t)| ==> r.delay == PauseDelay
    ensures r.Shown? && t.deleting && t.charIndex == 0 ==> r.delay == NextRoleDelay
    // outside the bound nothing fires and the previous delay is reused
    ensures r.Shown? && ((!t.deleting && t.charIndex > |Role(roles, t)|) || (t.deleting && t.charIndex < 0)) ==>
      r.next == t && r.delay == t.speed
  {
    if roles == [] then Crashed
    else
      var role := Role(roles, t);
      var text := if t.deleting then Prefix(role, t.charIndex - 1) else Prefix(role, t.charIndex + 1);
      var next := Advance(roles, t);
      var delay := if next.deleting && next.charIndex == 0 then PauseDelay else next.speed;
      Shown(text, next, delay)
  }

  /** The state after n calls; a failed call ends the effect where it stood. */
  function Run(roles: seq<Text>, t: Typer, n: nat): Typer
    decreases n
  {
    if n == 0 then t
    else match TypeStep(roles, t)
      case Crashed => t
      case Shown(_, next, _) => Run(roles, next, n - 1)
  }

  /** The bound holds of every state reached from a bounded one. */
  lemma {:induction false} RunBounded(roles: seq<Text>, t: Typer, n: nat)
    requires Bounded(roles, t)
    ensures Bounded(roles, Run(roles, t, n))
    decreases n
  {
    if n > 0 {
      RunBounded(roles, TypeStep(roles, t).next, n - 1);
    }
  }

  /** n calls then m more are n + m calls. */
  lemma {:induction false} RunAdd(roles: seq<Text>, t: Typer, n: nat, m: nat)
    ensures Run(roles, t, n + m) == Run(roles, Run(roles, t, n), m)
    decreases n
  {
    if n > 0 && roles != [] {
      RunAdd(roles, TypeStep(roles, t).next, n - 1, m);
    } else if roles == [] {
      RunCrashed(roles, t, n + m);
      RunCrashed(roles, t, n);
      RunCrashed(roles, t, m);
    }
  }

  lemma RunCrashed(roles: seq<Text>, t: Typer, n: nat)
    requires roles == []
    ensures Run(roles, t, n) == t
  {
  }

  /** Typing k more characters of the role takes k calls. */
  lemma {:induction false} TypingRun(roles: seq<Text>, t: Typer, k: nat)
    requires |roles| > 0 && !t.deleting && 0 <= t.charIndex && t.charIndex + k <= |Role(roles, t)|
    ensures Run(roles, t, k) == t.(charIndex := t.charIndex + k, speed := if k == 0 then t.speed else TypeDelay)
    decreases k
  {
    if k > 0 {
      var next := TypeStep(roles, t).next;
      assert next == t.(charIndex := t.charIndex + 1, speed := TypeDelay);
      TypingRun(roles, next, k - 1);
    }
  }

  /** Deleting k characters takes k calls. */
  lemma {:induction false} DeletingRun(roles: seq<Text>, t: Typer, k: nat)
    requires |roles| > 0 && t.deleting && k <= t.charIndex
    ensures Run(roles, t, k) == t.(charIndex := t.charIndex - k, speed := if k == 0 then t.speed else DeleteDelay)
    decreases k
  {
    if k > 0 {
      var next := TypeStep(roles, t).next;
      assert next == t.(charIndex := t.charIndex - 1, speed := DeleteDelay);
      DeletingRun(roles, next, k - 1);
    }
  }

  /**
   * A whole role takes 2 * |role| + 2 calls: type every character, turn around, delete every character,
   * and move on to the next role, ready to type it from the start.
   */
  lemma FullCycle(roles: seq<Text>, roleIndex: nat, speed: int)
    requires |roles| > 0
    ensures var len := |roles[roleIndex % |roles|]|;
      Run(roles, Typer(roleIndex, 0, false, speed), 2 * len + 2) == Typer(roleIndex + 1, 0, false, NextRoleDelay)
  {
    var t := Typer(roleIndex, 0, false, speed);
    var len := |Role(roles, t)|;
    TypingRun(roles, t, len);
    var typed := Run(roles, t, len);
    var turned := Typer(roleIndex, len, true, PauseDelay);
    assert Run(roles, typed, 1) == turned;
    DeletingRun(roles, turned, len);
    var emptied := Run(roles, turned, len);
    assert Run(roles, emptied, 1) == Typer(roleIndex + 1, 0, false, NextRoleDelay);
    RunAdd(roles, t, len, 1);
    RunAdd(roles, t, len + 1, len);
    RunAdd(roles, t, 2 * len + 1, 1);
  }

  /** No fewer calls reach the next role: 2 * |role| + 2 is the exact length of a cycle. */
  lemma CycleNotShorter(roles: seq<Text>, roleIndex: nat, speed: int, m: nat)
    requires |roles| > 0 && m < 2 * |roles[roleIndex % |roles|]| + 2
    ensures Run(roles, Typer(roleIndex, 0, false, speed), m).roleIndex == roleIndex
  {
    var t := Typer(roleIndex, 0, false, speed);
    var len := |Role(roles, t)|;
    if m <= len {
      TypingRun(roles, t, m);
    } else {
      TypingRun(roles, t, len);
      var turned := Typer(roleIndex, len, true, PauseDelay);
      assert Run(roles, Run(roles, t, len), 1) == turned;
      RunAdd(roles, t, len, 1);
      DeletingRun(roles, turned, m - len - 1);
      RunAdd(roles, t, len + 1, m - len - 1);
    }
  }
}
